=== FILE: README.md ===
# hush hardware drivers in Dafny

This project models the two hardware drivers of `hush`, a fan controller:

- **The Supermicro management-controller driver** (`X9`, `X10`, `X11`, `Gpu`). It covers:
  - the cached fan mode and its `ipmitool raw 0x30 0x45` commands;
  - reading the CPU or GPU temperature from one `ipmitool -c sdr` dump;
  - converting a speed percentage into a PWM duty value;
  - the two per-zone speed command dialects;
  - the `ipmitool fru` inventory map that chooses the default zones of an `X10` board.
- **The SMART drive driver.** It covers:
  - listing drives from `fdisk -l`;
  - reading a SATA drive that `hdparm -C` reports in standby as the fallback, without asking `smartctl`;
  - reading one temperature per drive from filtered `smartctl -x` lines through two regular expressions;
  - reporting the hottest drive.

The controller and the SSH shell are modelled as an *oracle*, a function from a command's text to its reply (`Exec.Reply`). Every operation is a pure function. It takes the cached device state and the oracle, and returns an `Exec.Step`: the new state, the commands issued in order, and either the value or the exception raised (`Exec.Error`).

Files and modules:

| file | module | contents |
|---|---|---|
| `wrappers.dfy` | `Wrappers` | `Option`, `Result` |
| `text.dfy` | `Text` | These Python string operations: `in`, `lower`, `strip`, `split`, `str`, `hex` and `int` |
| `exec.dfy` | `Exec` | replies, the oracle, errors, `Step` |
| `sdr.dfy` | `Sdr` | the `-c sdr` table, the sensor loops, `np.max` and indexing |
| `fru.dfy` | `Fru` | the `fru` listing read into a map |
| `supermicro.dfy` | `Supermicro` | the controller device and its operations |
| `supermicro_props.dfy` | `SupermicroProps` | properties across calls, and the concrete command texts |
| `drive_text.dfy` | `DriveText` | `re.findall` of the `fdisk` pattern, and the two temperature patterns |
| `smart.dfy` | `Smart` | the drive device and its operations |
| `smart_props.dfy` | `SmartProps` | the patterns read back what they match, and the properties of polling |

Behaviour of the code worth noting:

- `close()` goes through `set_fan_mode(STANDARD)`. So nothing is sent when STANDARD is already cached.
- `X9.set_speed` stores the new speed before comparing it with the stored speed. The comparison therefore never holds, and only the FULL mode command can be sent; the X9 zone commands it builds are never issued.
- The duty value is `int(speed / (100 / 255))`. That truncates toward zero; it does not round.

## Model

| member | source | states |
|---|---|---|
| Supermicro.ModeOf | hush/hardware/supermicro.py:12-16 | `FanMode(v)` gives the mode whose value is `v`; every other value raises |
| Supermicro.NewBmc | hush/hardware/supermicro.py:18-23 | a new device has no cached fan mode, speed, temperature or FRU map, and keeps its configured zones |
| Supermicro.GetTemp | hush/hardware/supermicro.py:28-46 | `X9.get_temp` sends one `-c sdr`. Without a core index it succeeds exactly when no CPU row is malformed and some CPU row holds a reading. It then returns and caches the largest reading, which is a reading of some CPU row. With a core index and no malformed row it succeeds exactly when `-len <= core < len` for the readings, and returns the reading at `core`, counted from the end when negative. A malformed CPU row raises whether or not a core index is given. A failure leaves the state unchanged |
| Sdr.CpuTempIsMaximum | hush/hardware/supermicro.py:32-40 | the CPU reduction succeeds exactly when no row is malformed and some reading exists; the result is a reading and bounds every reading |
| Sdr.RowReading | hush/hardware/supermicro.py:35-38 | one row for one sensor raises exactly when the row is malformed: its first field is the sensor and its second field is missing or is text that is not a number. Otherwise it yields the row's reading, if it has one |
| Sdr.SensorReadings | hush/hardware/supermicro.py:34-38 | the inner loop raises exactly when some line is malformed for the sensor; otherwise it yields that sensor's column in line order |
| Sdr.Readings | hush/hardware/supermicro.py:33-38 | the outer loop raises exactly when some listed sensor has a malformed row; otherwise it yields the readings grouped by sensor-list position |
| Sdr.ColumnMembers | hush/hardware/supermicro.py:34-38 | a value is in a sensor's column exactly when some row of that sensor holds it |
| Sdr.TableMembers | hush/hardware/supermicro.py:33-38 | a value is in the table exactly when it is the reading of some row of some listed sensor |
| Sdr.RowRoundTrip | hush/hardware/supermicro.py:36-38 | a row written as `sensor,str(n),rest` reads back as `n` for that sensor, as nothing for any other sensor, and is malformed for no sensor |
| Sdr.Max | hush/hardware/supermicro.py:40 | `np.max` of a non-empty list is an element of the list and is at least every element |
| Sdr.PyIndex | hush/hardware/supermicro.py:42 | `temps[core]` succeeds exactly for `-len <= core < len`, and a negative index counts from the end |
| Sdr.Reduce | hush/hardware/supermicro.py:39-42 | without a core index it fails exactly on an empty list and otherwise returns the maximum; with an index it is Python indexing |
| Sdr.CpuTempAtCore | hush/hardware/supermicro.py:41-42 | with a core index, the result is Python indexing into the readings |
| Sdr.CpuTemp | hush/hardware/supermicro.py:32-42 | the CPU reduction raises when some CPU row is malformed; otherwise it reduces the table of readings, grouped by sensor-list position, by maximum or by the core index |
| SupermicroProps.CpuTempExample | hush/hardware/supermicro.py:32-42 | a `CPU1 Temp` row of 45 and then a `CPU2 Temp` row of 52: core 0 reads 45, and no core reads 52 |
| Sdr.GpuTemp | hush/hardware/supermicro.py:115-122 | the GPU reduction succeeds exactly when no GPU row is malformed and the table is non-empty. The result is a reading and bounds every reading |
| Supermicro.GpuGetTemp | hush/hardware/supermicro.py:110-126 | `Gpu.get_temp` sends one `-c sdr` and returns and caches the largest GPU reading, with the same success condition. A failure leaves the state unchanged |
| Supermicro.GetFanMode | hush/hardware/supermicro.py:48-51 | sends the mode query. It succeeds exactly when the reply is an integer that is a mode value, and then caches and returns that mode |
| SupermicroProps.GetFanModeReadsValue | hush/hardware/supermicro.py:48-51 | a reply holding a mode's decimal value, framed by any white space, caches and returns that mode |
| Supermicro.SetFanMode | hush/hardware/supermicro.py:53-56 | sends the mode command exactly when the cached mode differs. It caches the mode only once the command has returned; a failed command leaves the state unchanged |
| SupermicroProps.SetFanModeTwice | hush/hardware/supermicro.py:53-56 | a second identical `set_fan_mode` after a successful one sends nothing. The pair sends at most one command, and exactly one when the mode was not cached |
| SupermicroProps.FanModeCommands | hush/hardware/supermicro.py:55 | the mode command carries the decimal enum value, e.g. `raw 0x30 0x45 0x01 4` for HEAVYIO |
| Supermicro.Close | hush/hardware/supermicro.py:25-26 | `close` sends the STANDARD command only when STANDARD is not cached. It succeeds exactly when STANDARD was cached or the command returned; success changes nothing but the cached mode, which becomes STANDARD, and a failure changes nothing |
| SupermicroProps.CloseTwice | hush/hardware/supermicro.py:25-26 | a second `close` after a successful one sends nothing |
| Supermicro.Pwm | hush/hardware/supermicro.py:62 | the duty value is `speed * 255 / 100` truncated toward zero, for either sign of the speed |
| SupermicroProps.PwmIsMonotoneByte | hush/hardware/supermicro.py:62 | for speeds from 0 to 100 the duty value is a byte, and it never decreases as the speed grows |
| SupermicroProps.PwmEnds | hush/hardware/supermicro.py:62 | `hex` renders speed 100 as `0xff` and speed 0 as `0x0` |
| SupermicroProps.ZoneCommandFields | hush/hardware/supermicro.py:64 | a zone command reads back as the dialect's fixed prefix, the zone token, one space and the duty text |
| SupermicroProps.ZoneCommandsDiffer | hush/hardware/supermicro.py:98 | distinct zones get distinct commands for the same duty value |
| Supermicro.ZoneCommands | hush/hardware/supermicro.py:97-98 | the zone commands of a zone list: one per zone, the `i`-th for the `i`-th zone |
| Supermicro.SendZones | hush/hardware/supermicro.py:97-98 | the zone loop sends one command per zone in order. It succeeds exactly when every zone command returns; otherwise it stops after the first failing zone |
| Supermicro.X9SetSpeed | hush/hardware/supermicro.py:58-65 | `X9.set_speed` caches the speed at once. It sends only the FULL mode command, and only when FULL is not cached |
| SupermicroProps.X9SetSpeedSendsNoZoneCommand | hush/hardware/supermicro.py:58-65 | no X9 zone command is ever sent by `X9.set_speed`, whatever the zones, speed and cache |
| SupermicroProps.X9ZoneCommandIsNotModeCommand | hush/hardware/supermicro.py:64 | an X9 zone command is never the FULL mode command |
| Supermicro.BoardPartNumber | hush/hardware/supermicro.py:67-76 | reads `fru` only when no map is cached, caches the parsed map, and returns its `Board Part Number` or the empty string |
| SupermicroProps.BoardPartNumberOnce | hush/hardware/supermicro.py:67-76 | a second lookup after a successful one sends nothing and returns the same part number |
| Fru.Entry | hush/hardware/supermicro.py:72-74 | a line contributes an entry exactly when it contains `:`. The key is its stripped first field and the value its stripped second field |
| Fru.AssembleLastWins | hush/hardware/supermicro.py:71-74 | the updated dictionary has a key exactly when some entry has it, and the value comes from the last such entry |
| Fru.ParseFru | hush/hardware/supermicro.py:70-74 | the FRU map has a key exactly when the entry of some line has it |
| Fru.PartNumberOfListing | hush/hardware/supermicro.py:70-76 | the part number is the value on the last line whose key is `Board Part Number`, or the empty string when no line has that key |
| Fru.ParseFruLastWins | hush/hardware/supermicro.py:70-74 | the FRU map has a key exactly when some line with a `:` has it, and the value comes from the last such line |
| SupermicroProps.DefaultZonesResolved | hush/hardware/supermicro.py:18-91 | `X9` and `Gpu` store the default zones `0x10, 0x11` (which their `set_speed` never sends); `X10` and `X11` store `None`, so their zone lookup falls back to the board-dependent zones |
| Supermicro.ResolvedZones | hush/hardware/supermicro.py:85-91 | the configured zones when there are any, otherwise `00..03` on an `X10DRG` board and `00, 01` on any other |
| SupermicroProps.DefaultZoneCount | hush/hardware/supermicro.py:85-91 | without configured zones there are four zones on an `X10DRG` board and two on any other |
| Supermicro.GetSpeedZones | hush/hardware/supermicro.py:83-91 | the part number is looked up first even when zones are configured, so `fru` is sent exactly when no map is cached. The map cached then is the one parsed from the `fru` reply, and a failed `fru` caches nothing. The result is the resolved zones of the cached part number, and nothing but the FRU map changes in the state |
| SupermicroProps.FreshX10Zones | hush/hardware/supermicro.py:79-91 | a new `X10` built with the default zones (none) sends `fru` once and returns `00..03` on an `X10DRG` board and `00, 01` on any other |
| Supermicro.X10SetSpeed | hush/hardware/supermicro.py:93-99 | the call succeeds exactly when FULL is in place (cached, or its command returned) and either the speed is unchanged or the FRU map is known and every resolved zone's command returned; so a failed zone command always fails the call, and the speed is cached only after the whole loop. Once FULL is in place and the speed changes, the cached FRU map is the old one or else the parsed `fru` reply. The commands always start with the FULL mode change when FULL is not cached, and an unchanged speed sends nothing more. A successful change of speed sends exactly the FULL change, the FRU read if no map is cached, and one command per resolved zone. A FRU map cached by the call was read from the `fru` reply. Success caches FULL and the speed. A failure changes nothing but the cached mode and FRU map. A failed FULL change sends only that command and changes nothing. A later failure is either the `fru` read, which then ends the commands, or the first failing zone command, after which nothing more is sent |
| SupermicroProps.X10SetSpeedRepeat | hush/hardware/supermicro.py:93-99 | repeating a successful `X10.set_speed` with the same speed sends nothing and changes nothing |
| SupermicroProps.X10SetSpeedChange | hush/hardware/supermicro.py:93-99 | a new speed after a successful one sends exactly one zone command per zone, with no mode or FRU command |
| Supermicro.SetSpeed | hush/hardware/supermicro.py:58-99 | class dispatch. X9 and Gpu send only the FULL change when FULL is not cached, always cache the speed, and cache FULL exactly on success. X10 and X11 send only the FULL change for an unchanged speed; a successful new speed sends the FULL change, the FRU read if needed, and one command per resolved zone; a failure changes nothing but the cached mode and FRU map. X10 and X11 also keep `X10.set_speed`'s exact success condition, its failed-FULL case (only that command, nothing changed) and the tie between a newly cached FRU map and the `fru` reply. On success every class has FULL and the speed cached |
| Text.Split | hush/hardware/supermicro.py:36 | `split` gives at least one field. The fields joined by the separator give back the text, no field contains the separator, and there are two or more fields exactly when the separator occurs |
| Text.Strip | hush/hardware/smart.py:52 | `strip` removes a white-space frame and leaves no white space at either end |
| Text.Contains | hush/hardware/smart.py:33 | `needle in s` holds exactly when the needle occurs at some index |
| Text.ParseIntOfDecimal | hush/hardware/supermicro.py:50 | `int(str(n)) == n` for every integer |
| Text.ParseIntOfFramed | hush/hardware/supermicro.py:50 | `int` ignores white space around a decimal |
| Text.SignedDigits | hush/hardware/supermicro.py:50 | a number is read exactly when the text is an optional sign followed by one or more decimal digits |
| Text.NatToDecimal | hush/hardware/supermicro.py:55 | `str(n)` is a non-empty run of digits without a leading zero, whose value is `n` |
| Smart.NewSmart | hush/hardware/smart.py:11-13 | a new device keeps the given drive list and has no temperature |
| Smart.GetDriveList | hush/hardware/smart.py:16-25 | sends `fdisk -l`; a shell failure propagates. Every returned path is a drive path matched at some position of the output, and every match's path is returned. The paths come in the order of their match positions, which increase without overlap and include every position where a match starts, so a drive printed twice is listed twice |
| DriveText.DriveAtExactly | hush/hardware/smart.py:20 | a match of the `fdisk` pattern starts at an index with path `p` exactly when `Disk ` and `p` stand there, `p` is a SATA or NVMe path, and the greedy class of its last part cannot extend it |
| DriveText.DriveAtShape | hush/hardware/smart.py:20 | a match found at an index is `Disk ` followed by a SATA or NVMe path that the greedy class cannot extend |
| DriveText.MatchesFrom | hush/hardware/smart.py:20 | `findall` lists matches in increasing, non-overlapping positions, each a real match, and misses none |
| DriveText.DrivePaths | hush/hardware/smart.py:20 | the paths found are drive paths matched somewhere in the output, and every match's path is among them. There are positions, increasing and non-overlapping, at which the paths are matched in list order, and every match position is one of them |
| DriveText.PathsInOrder | hush/hardware/smart.py:20 | the paths of `findall`'s matches, taken in match order, have such positions |
| SmartProps.SataNameForms | hush/hardware/smart.py:29 | a `/dev/sd*` path passes the SATA name check, also with one newline after it, but not with two newlines or a trailing space |
| Smart.IsStandby | hush/hardware/smart.py:27-38 | only a `/dev/sd[a-z]+` path (optionally followed by one final newline) is asked. The drive is in standby exactly when the lower-cased reply contains `standby`; a failure counts as awake |
| SmartProps.NvmeIsNotSata | hush/hardware/smart.py:29 | an NVMe path never passes the SATA name check |
| SmartProps.NvmeNeverAsked | hush/hardware/smart.py:28-30 | an NVMe drive is never asked about standby, and reading it sends only the `smartctl` command |
| Smart.DriveTemp | hush/hardware/smart.py:40-62 | a drive in standby reads as the fallback with no `smartctl` command. Otherwise the reading is that of the first line that yields one, or the fallback when the shell fails or no line yields one |
| SmartProps.LineTempExactly | hush/hardware/smart.py:45-54 | one line reads `v` exactly when its stripped text has the label shape with value `v`, or has no label match and has the attribute-row shape with `v` |
| SmartProps.ScanTemperatureFirst | hush/hardware/smart.py:50-54 | the filtered lines give no value exactly when no line reads one, and otherwise the value of the first line that does |
| DriveText.FirstMatch | hush/hardware/smart.py:50-54 | the line loop yields nothing exactly when no line is accepted, and otherwise yields the value of the first accepted line |
| DriveText.LabelEnd | hush/hardware/smart.py:47 | where the label part of the first pattern ends, the text read so far is one of the three labels: `Temperature:`, `Current Temperature:` or `Current Drive Temperature:`, each inner space being any one white-space character |
| DriveText.LabelEndOf | hush/hardware/smart.py:47 | a text that starts with one of the three labels has its label part end right after that label |
| SmartProps.LabelPatternExactly | hush/hardware/smart.py:47 | the first pattern reads `v` exactly when the stripped line is a label, possibly empty white space, an optional minus and a digit run worth `v`, then text that does not start with a digit |
| SmartProps.RowPatternExactly | hush/hardware/smart.py:48 | the second pattern reads `v` exactly when the stripped line is some text, an optional minus and a digit run worth `v`, white space, `---`, white space, an optional `Current` and white space, and `Temperature` at the very end; without the minus the text before the digits ends in neither a digit nor `-` |
| SmartProps.LabelRoundTrip | hush/hardware/smart.py:47 | a label, white space and `str(n)`, then anything that does not start with a digit: the first pattern reads `n` |
| SmartProps.LabelLine | hush/hardware/smart.py:47-54 | a label line framed by any white space reads as its decimal |
| SmartProps.AttributeRowRoundTrip | hush/hardware/smart.py:48 | `str(n)`, white space and the `--- [Current] Temperature` end: the second pattern reads `n` when nothing, or a character that is neither a digit nor `-`, comes before it |
| SmartProps.AttributeRowLine | hush/hardware/smart.py:48-54 | such a row, framed by any white space and not starting like a label, reads as its decimal |
| SmartProps.NvmeReading | hush/hardware/smart.py:40-54 | an NVMe drive whose first filtered line is a `Temperature:` line reads as that line's value, after one command |
| Smart.PollDrives | hush/hardware/smart.py:69-72 | one reading per drive |
| Smart.PollReadsEach | hush/hardware/smart.py:69-72 | the `k`-th reading is the `k`-th drive's temperature |
| SmartProps.PollNeverLists | hush/hardware/smart.py:69-70 | polling the drives never sends `fdisk -l` |
| Smart.GetTemp | hush/hardware/smart.py:64-78 | `fdisk -l` is sent first when no drive list was given or it is empty; the list it yields is cached and then polled, so the commands are `fdisk -l` and then each drive's commands in order. A given non-empty list is kept and polled. An `fdisk` failure and an empty list raise. Otherwise the result is the temperature of some drive, is at least every drive's temperature, and is cached |
| Smart.HottestDrive | hush/hardware/smart.py:73 | the largest polled temperature is some drive's and bounds every drive's |
| SmartProps.GetTempTwice | hush/hardware/smart.py:67-74 | after a successful `get_temp`, another one lists no drives; it polls the cached list again and returns the same reading |
| SmartProps.GetTempCached | hush/hardware/smart.py:67-74 | with a non-empty cached list, `get_temp` polls exactly that list and caches and returns the largest reading |
| SmartProps.StandbyFloor | hush/hardware/smart.py:42-43 | a drive in standby reads as the fallback, so the reported temperature is never below 30 |
| SmartProps.GetTempOfTwo | hush/hardware/smart.py:67-74 | a fixed list of two drives reports the hotter reading, after the first drive's commands and then the second's |
| SmartProps.StandbyAndNvmeExample | hush/hardware/smart.py:27-74 | a SATA drive in standby and an NVMe drive whose only filtered line is `Temperature: 42 Celsius`: the reading is 42, after one `hdparm` and one `smartctl` command |
| SmartProps.ExamplePaths | hush/hardware/smart.py:20 | `/dev/sda` is a SATA path and `/dev/nvme0n1` an NVMe path |

## Left out

- The transport is not modelled: the `ipmitool` and SSH sessions, credentials (`get_oob_credentials`, `get_os_credentials`), the `async` scheduling and logging. `X11` differs from `X10` only in its transport, so it shares `X10`'s operations.
- Each operation sees a fixed oracle. The same command text gets the same reply within one operation and across the calls a lemma relates, which is what "the shell answering alike" means in `SmartProps.GetTempTwice`.
- Sdr.RowReading: `float(data[1])` also accepts fractions, exponents, `inf` and `nan`. The model reads only integers and raises (as for ValueError) on every other text, so on a fractional reading such as `45.5`, which the source reads as 45, the model raises instead. The sensors report whole degrees.
- Text.SignedDigits: Python's `int()` also accepts `_` between digits and non-ASCII digits. The model reads ASCII digits only; its white space is the full Unicode set that `str.isspace` and `str.strip` use.
- Text.Lower: only ASCII letters are lower-cased, whereas Python lower-cases all of Unicode.
- Smart.GetDriveList: when `fdisk -l` itself raises, the source's handler logs an unbound `result` and so raises NameError instead of the original error. The model reports the shell failure.
- Supermicro.GetTemp: the same unbound `result` in the `except` path of `X9.get_temp` and `Gpu.get_temp` is not distinguished from the original error.
- DriveText.MatchesFrom: models `re.findall` only for the `fdisk` pattern, whose classes `[0-9]` and `[a-z]` are ASCII as in Python.
- DriveText.LabelEnd, DriveText.SignedAt, DriveText.RowPattern: in the `smartctl` patterns `\s` is Python's Unicode white space, as in `str.strip`, but `\d` is read as the ASCII digits only, whereas Python's `\d` also matches other Unicode decimal digits.
- Supermicro.Pwm: the speed is an integer; float speeds are not modelled. The source divides by the float `100 / 255`, which lies just below `20 / 51`, so for the integer speeds used in practice its truncated quotient agrees with the exact `speed * 255 / 100` truncated toward zero that the model computes.
- `temp is not None` in `get_temp` is always true, because `get_drive_temp` returns a number on every path; the model appends every reading.
- Device base-class state that these drivers do not touch (host name, `_ipmitool` and `ssh` handles) is not part of the model.

=== FILE: drive_text.dfy ===
/**
 * The text dialects `Smart` reads, with its three regular expressions written
 * out as scanners: the `fdisk -l` drive-path search
 * `Disk (/dev/sd[a-z]+|/dev/nvme[0-9]+n[0-9]+)` (all non-overlapping matches,
 * left to right), the label pattern
 * `^(?:Current(?:\sDrive)?\s)?Temperature:\s*(-?\d+)` and the attribute-row
 * pattern `(-?\d+)\s+---\s+(?:Current\s+)?Temperature\Z`.
 */
module DriveText {
  import opened Wrappers
  import opened Text

  // Runs of one character class.

  datatype CharClass = Spaces | Digits | Letters

  predicate InClass(c: char, k: CharClass) {
    match k
    case Spaces => IsSpace(c)
    case Digits => IsDigit(c)
    case Letters => IsLower(c)
  }

  /** The length of the longest run of class `k` starting at `i`: what a greedy `[...]*` consumes there. */
  function RunFrom(s: string, i: nat, k: CharClass): (n: nat)
    requires i <= |s|
    ensures i + n <= |s|
    ensures forall j :: i <= j < i + n ==> InClass(s[j], k)
    ensures i + n == |s| || !InClass(s[i + n], k)
    decreases |s| - i
  {
    if i < |s| && InClass(s[i], k) then 1 + RunFrom(s, i + 1, k) else 0
  }

  /** The length of the run of class `k` that ends the text. */
  function RunBack(s: string, k: CharClass): (n: nat)
    ensures n <= |s|
    ensures forall j :: |s| - n <= j < |s| ==> InClass(s[j], k)
    ensures n == |s| || !InClass(s[|s| - n - 1], k)
    decreases |s|
  {
    if |s| > 0 && InClass(s[|s| - 1], k) then 1 + RunBack(s[..|s| - 1], k) else 0
  }

  /** A forward run is determined by where the class ends. */
  lemma RunFromIs(s: string, i: nat, k: CharClass, n: nat)
    requires i + n <= |s|
    requires forall j :: i <= j < i + n ==> InClass(s[j], k)
    requires i + n == |s| || !InClass(s[i + n], k)
    ensures RunFrom(s, i, k) == n
  {
  }

  /** A trailing run is determined by where the class begins. */
  lemma RunBackIs(s: string, k: CharClass, n: nat)
    requires n <= |s|
    requires forall j :: |s| - n <= j < |s| ==> InClass(s[j], k)
    requires n == |s| || !InClass(s[|s| - n - 1], k)
    ensures RunBack(s, k) == n
  {
  }

  // Drive paths in `fdisk -l` output.

  /** `/dev/sd[a-z]+`. */
  predicate IsSdPath(p: string) {
    |p| > 7 && p[..7] == "/dev/sd" && forall k :: 7 <= k < |p| ==> IsLower(p[k])
  }

  /** `/dev/nvme[0-9]+n[0-9]+`. */
  predicate IsNvmePath(p: string) {
    |p| > 9 && p[..9] == "/dev/nvme" && exists k :: 9 < k < |p| - 1 && NvmeSplitAt(p, k)
  }

  /** The `n` of an NVMe path stands at `k`, with one or more digits on each side of it. */
  predicate NvmeSplitAt(p: string, k: int) {
    && 9 < k < |p| - 1 && p[k] == 'n'
    && (forall j :: 9 <= j < k ==> IsDigit(p[j]))
    && (forall j :: k < j < |p| ==> IsDigit(p[j]))
  }

  predicate IsDrivePath(p: string) {
    IsSdPath(p) || IsNvmePath(p)
  }

  /** No character of a drive path is `D`, so no match starts inside another one. */
  lemma PathHasNoD(p: string, k: nat)
    requires IsDrivePath(p) && k < |p|
    ensures p[k] != 'D'
  {
    if IsSdPath(p) {
      if k < 7 {
        assert p[k] == p[..7][k];
      } else {
        assert IsLower(p[k]);
      }
    } else {
      var m :| 9 < m < |p| - 1 && NvmeSplitAt(p, m);
      if k < 9 {
        assert p[k] == p[..9][k];
      } else if k < m {
        assert IsDigit(p[k]);
      } else if k > m {
        assert IsDigit(p[k]);
      }
    }
  }

  /** `Disk ` followed by `p`, at `i`. */
  lemma DiskThen(s: string, i: nat, head: string, p: string, cut: nat)
    requires 5 <= cut <= |head| && head[..5] == "Disk "
    requires OccursAt(s, head, i) && i + 5 + |p| <= |s| && i + |head| <= i + 5 + |p|
    requires p == s[i + 5..i + 5 + |p|]
    ensures OccursAt(s, "Disk " + p, i)
  {
    assert s[i..i + 5] == s[i..i + |head|][..5];
    assert s[i..i + 5 + |p|] == s[i..i + 5] + s[i + 5..i + 5 + |p|];
  }

  /** The first alternative, `Disk /dev/sd[a-z]+`, at `i`. */
  function SdAt(s: string, i: nat): (r: Option<string>)
    requires i <= |s|
    ensures r.Some? ==> OccursAt(s, "Disk " + r.value, i) && IsSdPath(r.value) && s[i] == 'D'
    ensures r.Some? ==> i + 5 + |r.value| == |s| || !IsLower(s[i + 5 + |r.value|])
  {
    if OccursAt(s, "Disk /dev/sd", i) && RunFrom(s, i + 12, Letters) > 0 then
      var n := RunFrom(s, i + 12, Letters);
      var p := s[i + 5..i + 12 + n];
      assert p[..7] == s[i..i + 12][5..];
      assert s[i] == s[i..i + 12][0];
      assert forall k :: 7 <= k < |p| ==> IsLower(p[k]) by {
        forall k | 7 <= k < |p| ensures IsLower(p[k]) {
          assert p[k] == s[i + 5 + k];
          assert InClass(s[i + 5 + k], Letters);
        }
      }
      DiskThen(s, i, "Disk /dev/sd", p, 5);
      Some(p)
    else
      None
  }

  /** The second alternative, `Disk /dev/nvme[0-9]+n[0-9]+`, at `i`. */
  function NvmeAt(s: string, i: nat): (r: Option<string>)
    requires i <= |s|
    ensures r.Some? ==> OccursAt(s, "Disk " + r.value, i) && IsNvmePath(r.value) && s[i] == 'D'
    ensures r.Some? ==> i + 5 + |r.value| == |s| || !IsDigit(s[i + 5 + |r.value|])
  {
    match NvmeSpan(s, i)
    case None => None
    case Some((k, e)) =>
      NvmeFound(s, i, k, e);
      Some(s[i + 5..e])
  }

  /**
   * Where the two greedy digit runs of the second alternative stand: the
   * `n` at `k` and the end of the match at `e`.
   */
  function NvmeSpan(s: string, i: nat): (r: Option<(nat, nat)>)
    requires i <= |s|
    ensures r.Some? ==> var (k, e) := r.value;
      && OccursAt(s, "Disk /dev/nvme", i) && i + 14 < k && k + 1 < e <= |s| && s[k] == 'n'
      && (forall j :: i + 14 <= j < k ==> InClass(s[j], Digits))
      && (forall j :: k + 1 <= j < e ==> InClass(s[j], Digits))
      && (e == |s| || !InClass(s[e], Digits))
  {
    if OccursAt(s, "Disk /dev/nvme", i) && RunFrom(s, i + 14, Digits) > 0 then
      var k := i + 14 + RunFrom(s, i + 14, Digits);
      if k < |s| && s[k] == 'n' && RunFrom(s, k + 1, Digits) > 0 then
        Some((k, k + 1 + RunFrom(s, k + 1, Digits)))
      else
        None
    else
      None
  }

  /** What `NvmeAt` reports when it finds a match. */
  lemma NvmeFound(s: string, i: nat, k: nat, e: nat)
    requires OccursAt(s, "Disk /dev/nvme", i) && i + 14 < k && k + 1 < e <= |s| && s[k] == 'n'
    requires forall j :: i + 14 <= j < k ==> InClass(s[j], Digits)
    requires forall j :: k + 1 <= j < e ==> InClass(s[j], Digits)
    requires e == |s| || !InClass(s[e], Digits)
    ensures var p := s[i + 5..e];
      && OccursAt(s, "Disk " + p, i) && IsNvmePath(p) && s[i] == 'D'
      && (i + 5 + |p| == |s| || !IsDigit(s[i + 5 + |p|]))
  {
    var p := s[i + 5..e];
    assert i + 5 + |p| == e;
    assert p[..9] == s[i..i + 14][5..];
    assert s[i] == s[i..i + 14][0];
    NvmeShape(s, i, k, p);
    DiskThen(s, i, "Disk /dev/nvme", p, 5);
  }


  /** The digit runs on both sides of the `n` make the path an NVMe path. */
  lemma NvmeShape(s: string, i: nat, k: nat, p: string)
    requires i + 14 < k < |s| && s[k] == 'n'
    requires forall j :: i + 14 <= j < k ==> InClass(s[j], Digits)
    requires k + 1 < i + 5 + |p| <= |s| && p == s[i + 5..i + 5 + |p|] && p[..9] == "/dev/nvme"
    requires forall j :: k + 1 <= j < i + 5 + |p| ==> InClass(s[j], Digits)
    ensures IsNvmePath(p)
  {
    var m := k - i - 5;
    assert p[m] == 'n';
    forall j | 9 <= j < m ensures IsDigit(p[j]) {
      assert p[j] == s[i + 5 + j];
      assert InClass(s[i + 5 + j], Digits);
    }
    forall j | m < j < |p| ensures IsDigit(p[j]) {
      assert p[j] == s[i + 5 + j];
      assert InClass(s[i + 5 + j], Digits);
    }
    assert NvmeSplitAt(p, m);
  }

  /**
   * The drive path of a match of the `fdisk` pattern starting at `i`, if
   * there is one. Both character classes are greedy and nothing follows
   * them, so the match, when it exists, is the longest one.
   */
  function DriveAt(s: string, i: nat): Option<string>
    requires i <= |s|
  {
    match SdAt(s, i)
    case Some(p) => Some(p)
    case None => NvmeAt(s, i)
  }

  /** Nothing the class of the path's last part accepts follows the path: where the greedy match ends. */
  predicate EndsPath(s: string, i: nat, p: string) {
    i + 5 + |p| < |s| ==> if IsSdPath(p) then !IsLower(s[i + 5 + |p|]) else !IsDigit(s[i + 5 + |p|])
  }

  /**
   * A match of the `fdisk` pattern starts at `i` exactly when `Disk ` and a
   * drive path stand there and the path's class cannot extend it.
   */
  lemma DriveAtExactly(s: string, i: nat, p: string)
    requires i <= |s|
    ensures DriveAt(s, i) == Some(p) <==> OccursAt(s, "Disk " + p, i) && IsDrivePath(p) && EndsPath(s, i, p)
  {
    if DriveAt(s, i) == Some(p) {
      DriveAtShape(s, i);
    }
    if OccursAt(s, "Disk " + p, i) && IsDrivePath(p) && EndsPath(s, i, p) {
      if IsSdPath(p) {
        SdPathFound(s, i, p);
      } else {
        NvmePathFound(s, i, p);
      }
    }
  }

  /** A path the pattern finds stands after `Disk ` and ends where the greedy match ends. */
  lemma DriveAtShape(s: string, i: nat)
    requires i <= |s| && DriveAt(s, i).Some?
    ensures var p := DriveAt(s, i).value;
      OccursAt(s, "Disk " + p, i) && IsDrivePath(p) && EndsPath(s, i, p) && s[i] == 'D'
  {
    if SdAt(s, i).None? {
      NvmeIsNotSd(NvmeAt(s, i).value);
    }
  }

  /** `Disk ` and a SATA path that no letter follows: the first alternative finds that path. */
  lemma SdPathFound(s: string, i: nat, p: string)
    requires OccursAt(s, "Disk " + p, i) && IsSdPath(p)
    requires i + 5 + |p| == |s| || !IsLower(s[i + 5 + |p|])
    ensures DriveAt(s, i) == Some(p)
  {
    PathSlices(s, i, p);
    assert s[i..i + 12] == "Disk " + p[..7];
    RunInPath(s, i, p, 7, |p|, Letters);
  }

  /** `Disk ` and an NVMe path that no digit follows: the second alternative finds that path. */
  lemma NvmePathFound(s: string, i: nat, p: string)
    requires OccursAt(s, "Disk " + p, i) && IsNvmePath(p)
    requires i + 5 + |p| == |s| || !IsDigit(s[i + 5 + |p|])
    ensures DriveAt(s, i) == Some(p)
  {
    NvmeIsNotSdAt(s, i, p);
    assert SdAt(s, i).None?;
    NvmeAtFound(s, i, p);
  }

  /** The second alternative on its own finds an NVMe path that no digit follows. */
  lemma NvmeAtFound(s: string, i: nat, p: string)
    requires OccursAt(s, "Disk " + p, i) && IsNvmePath(p)
    requires i + 5 + |p| == |s| || !IsDigit(s[i + 5 + |p|])
    ensures NvmeAt(s, i) == Some(p)
  {
    var m := NvmeRuns(s, i, p);
    NvmeAtIs(s, i, p, m);
  }

  /** The two digit runs of an NVMe path found after `Disk `, measured in the text. */
  lemma NvmeRuns(s: string, i: nat, p: string) returns (m: nat)
    requires OccursAt(s, "Disk " + p, i) && IsNvmePath(p)
    requires i + 5 + |p| == |s| || !IsDigit(s[i + 5 + |p|])
    ensures OccursAt(s, "Disk /dev/nvme", i) && i + 5 + |p| <= |s| && s[i + 5..i + 5 + |p|] == p
    ensures 9 < m && m + 1 < |p| && s[i + 5 + m] == 'n'
    ensures RunFrom(s, i + 5 + 9, Digits) == m - 9
    ensures RunFrom(s, i + 5 + (m + 1), Digits) == |p| - (m + 1)
  {
    NvmePrefix(s, i, p);
    PathSlices(s, i, p);
    m := NvmeMiddle(p);
    RunInPath(s, i, p, 9, m, Digits);
    RunInPath(s, i, p, m + 1, |p|, Digits);
    PathChar(s, i, p, m);
  }

  /** `Disk ` and an NVMe path start with `Disk /dev/nvme`. */
  lemma NvmePrefix(s: string, i: nat, p: string)
    requires OccursAt(s, "Disk " + p, i) && |p| >= 9 && p[..9] == "/dev/nvme"
    ensures OccursAt(s, "Disk /dev/nvme", i)
  {
    PathSlices(s, i, p);
    assert s[i..i + 14] == "Disk " + p[..9];
  }

  /** Where the `n` of an NVMe path stands. */
  lemma NvmeMiddle(p: string) returns (m: nat)
    requires IsNvmePath(p)
    ensures 9 < m < |p| - 1 && p[m] == 'n'
    ensures forall j :: 9 <= j < m ==> InClass(p[j], Digits)
    ensures forall j :: m < j < |p| ==> InClass(p[j], Digits)
  {
    m :| 9 < m < |p| - 1 && NvmeSplitAt(p, m);
  }

  /** The second alternative, once its two digit runs are measured. */
  lemma NvmeAtIs(s: string, i: nat, p: string, m: nat)
    requires OccursAt(s, "Disk /dev/nvme", i) && i + 5 + |p| <= |s| && s[i + 5..i + 5 + |p|] == p
    requires 9 < m && m + 1 < |p| && s[i + 5 + m] == 'n'
    requires RunFrom(s, i + 5 + 9, Digits) == m - 9
    requires RunFrom(s, i + 5 + (m + 1), Digits) == |p| - (m + 1)
    ensures NvmeAt(s, i) == Some(p)
  {
  }

  /** The text `Disk ` and a path cover, and the path's own slice. */
  lemma PathSlices(s: string, i: nat, p: string)
    requires OccursAt(s, "Disk " + p, i)
    ensures s[i..i + 5 + |p|] == "Disk " + p && s[i + 5..i + 5 + |p|] == p
    ensures |p| >= 9 ==> s[i..i + 14] == "Disk " + p[..9]
    ensures |p| >= 7 ==> s[i..i + 12] == "Disk " + p[..7]
  {
    assert s[i + 5..i + 5 + |p|] == s[i..i + 5 + |p|][5..];
    if |p| >= 9 {
      assert s[i..i + 14] == s[i..i + 5 + |p|][..14] == ("Disk " + p)[..14] == "Disk " + p[..9];
    }
    if |p| >= 7 {
      assert s[i..i + 12] == s[i..i + 5 + |p|][..12] == ("Disk " + p)[..12] == "Disk " + p[..7];
    }
  }

  /** One character of a path found after `Disk `. */
  lemma PathChar(s: string, i: nat, p: string, j: nat)
    requires OccursAt(s, "Disk " + p, i) && j < |p|
    ensures s[i + 5 + j] == p[j]
  {
    assert s[i + 5 + j] == s[i..i + 5 + |p|][5 + j];
  }

  /** A run of class `k` inside a path found after `Disk `, measured in the text. */
  lemma RunInPath(s: string, i: nat, p: string, a: nat, b: nat, k: CharClass)
    requires OccursAt(s, "Disk " + p, i) && a <= b <= |p|
    requires forall j :: a <= j < b ==> InClass(p[j], k)
    requires b < |p| ==> !InClass(p[b], k)
    requires b == |p| ==> i + 5 + |p| == |s| || !InClass(s[i + 5 + |p|], k)
    ensures RunFrom(s, i + 5 + a, k) == b - a
  {
    forall j | i + 5 + a <= j < i + 5 + b ensures InClass(s[j], k) {
      PathChar(s, i, p, j - i - 5);
    }
    if b < |p| {
      PathChar(s, i, p, b);
    }
    RunFromIs(s, i + 5 + a, k, b - a);
  }

  /** Before an NVMe path the first alternative fails: `n` stands where it needs `s`. */
  lemma NvmeIsNotSdAt(s: string, i: nat, p: string)
    requires OccursAt(s, "Disk " + p, i) && IsNvmePath(p)
    ensures !OccursAt(s, "Disk /dev/sd", i)
  {
    PathChar(s, i, p, 5);
    assert p[5] == p[..9][5] == 'n';
    assert i + 12 <= |s| ==> s[i..i + 12][10] == 'n';
  }

  /** The two path shapes differ at their sixth character. */
  lemma NvmeIsNotSd(p: string)
    requires IsNvmePath(p)
    ensures !IsSdPath(p)
  {
    assert p[5] == p[..9][5];
    assert |p| > 7 ==> p[5] == p[..7][5];
  }

  /** No match starts strictly inside another one. */
  lemma NoMatchInside(s: string, i: nat, j: nat)
    requires i <= |s| && DriveAt(s, i).Some? && i < j < i + 5 + |DriveAt(s, i).value|
    ensures DriveAt(s, j).None?
  {
    DriveAtShape(s, i);
    NoDInside(s, i, DriveAt(s, i).value, j);
  }

  /** Past its first character, `Disk ` followed by a drive path holds no `D`. */
  lemma NoDInside(s: string, i: nat, p: string, j: nat)
    requires OccursAt(s, "Disk " + p, i) && IsDrivePath(p) && i < j < i + 5 + |p|
    ensures s[j] != 'D'
  {
    assert s[i..i + 5 + |p|] == "Disk " + p;
    assert s[j] == ("Disk " + p)[j - i];
    if j - i >= 5 {
      PathHasNoD(p, j - i - 5);
    }
  }

  /**
   * `re.findall` of the `fdisk` pattern from index `i` on: each match with
   * its position, scanning resumed at the end of the previous match.
   */
  function MatchesFrom(s: string, i: nat): (ms: seq<(nat, string)>)
    requires i <= |s|
    ensures forall k :: 0 <= k < |ms| ==> i <= ms[k].0 < |s| && DriveAt(s, ms[k].0) == Some(ms[k].1)
    ensures forall k :: 0 <= k < |ms| - 1 ==> ms[k].0 + 5 + |ms[k].1| <= ms[k + 1].0
    ensures forall j :: i <= j < |s| && DriveAt(s, j).Some? ==> exists k :: 0 <= k < |ms| && ms[k].0 == j
    decreases |s| - i
  {
    if i == |s| then
      []
    else
      match DriveAt(s, i)
      case None =>
        MatchesFrom(s, i + 1)
      case Some(p) =>
        DriveAtShape(s, i);
        var rest := MatchesFrom(s, i + 5 + |p|);
        ConsOrdered(s, i, p, rest);
        ConsComplete(s, i, p, rest);
        [(i, p)] + rest
  }

  /** A match at `i` followed by later, ordered matches is a list of ordered matches. */
  lemma ConsOrdered(s: string, i: nat, p: string, rest: seq<(nat, string)>)
    requires i < |s| && DriveAt(s, i) == Some(p)
    requires forall k :: 0 <= k < |rest| ==> i + 5 + |p| <= rest[k].0 < |s| && DriveAt(s, rest[k].0) == Some(rest[k].1)
    requires forall k :: 0 <= k < |rest| - 1 ==> rest[k].0 + 5 + |rest[k].1| <= rest[k + 1].0
    ensures var ms := [(i, p)] + rest;
      && (forall k :: 0 <= k < |ms| ==> i <= ms[k].0 < |s| && DriveAt(s, ms[k].0) == Some(ms[k].1))
      && (forall k :: 0 <= k < |ms| - 1 ==> ms[k].0 + 5 + |ms[k].1| <= ms[k + 1].0)
  {
    var ms := [(i, p)] + rest;
    assert forall k :: 0 < k < |ms| ==> ms[k] == rest[k - 1];
  }

  /** No match is skipped: the one at `i`, none inside it, and every later one in `rest`. */
  lemma ConsComplete(s: string, i: nat, p: string, rest: seq<(nat, string)>)
    requires i < |s| && DriveAt(s, i) == Some(p)
    requires forall j :: i + 5 + |p| <= j < |s| && DriveAt(s, j).Some? ==> exists k :: 0 <= k < |rest| && rest[k].0 == j
    ensures var ms := [(i, p)] + rest;
      forall j :: i <= j < |s| && DriveAt(s, j).Some? ==> exists k :: 0 <= k < |ms| && ms[k].0 == j
  {
    var ms := [(i, p)] + rest;
    var hit := (j: nat) => j <= |s| && DriveAt(s, j).Some?;
    forall j | i < j < i + 5 + |p| ensures !hit(j) {
      NoMatchInside(s, i, j);
    }
    forall j | i + 5 + |p| <= j < |s| && hit(j) ensures exists k :: 0 <= k < |rest| && rest[k].0 == j {
      assert DriveAt(s, j).Some?;
    }
    ConsFound(hit, |s|, i, i + 5 + |p|, p, rest);
    forall j | i <= j < |s| && DriveAt(s, j).Some? ensures exists k :: 0 <= k < |ms| && ms[k].0 == j {
      assert hit(j);
    }
  }

  /**
   * Every hit at or after `i` is listed, given that `i` is listed first, no
   * hit lies strictly between `i` and `e`, and `rest` lists every hit from `e` on.
   */
  lemma ConsFound(hit: nat -> bool, n: nat, i: nat, e: nat, p: string, rest: seq<(nat, string)>)
    requires forall j :: i < j < e ==> !hit(j)
    requires forall j :: e <= j < n && hit(j) ==> exists k :: 0 <= k < |rest| && rest[k].0 == j
    ensures var ms := [(i, p)] + rest;
      forall j :: i <= j < n && hit(j) ==> exists k :: 0 <= k < |ms| && ms[k].0 == j
  {
    var ms := [(i, p)] + rest;
    forall j | i <= j < n && hit(j)
      ensures exists k :: 0 <= k < |ms| && ms[k].0 == j
    {
      if j == i {
        assert ms[0].0 == j;
      } else {
        var k :| 0 <= k < |rest| && rest[k].0 == j;
        assert ms[k + 1].0 == j;
      }
    }
  }

  /**
   * `pos` holds, left to right and without overlap, the position where each
   * of `paths` is matched, and every position where a match starts.
   */
  predicate MatchPositions(out: string, paths: seq<string>, pos: seq<nat>) {
    && |pos| == |paths|
    && (forall k :: 0 <= k < |pos| ==> pos[k] < |out| && DriveAt(out, pos[k]) == Some(paths[k]))
    && (forall k :: 0 <= k < |pos| - 1 ==> pos[k] + 5 + |paths[k]| <= pos[k + 1])
    && (forall i :: 0 <= i < |out| && DriveAt(out, i).Some? ==> i in pos)
  }

  /** The drive paths `get_drive_list` returns for an `fdisk -l` output. */
  function DrivePaths(out: string): (paths: seq<string>)
    ensures forall k :: 0 <= k < |paths| ==>
      IsDrivePath(paths[k]) && exists i :: 0 <= i < |out| && DriveAt(out, i) == Some(paths[k])
    ensures forall i :: 0 <= i < |out| && DriveAt(out, i).Some? ==> DriveAt(out, i).value in paths
    ensures exists pos :: MatchPositions(out, paths, pos)
  {
    var ms := MatchesFrom(out, 0);
    var paths := seq(|ms|, k requires 0 <= k < |ms| => ms[k].1);
    PathsFound(out, ms, paths);
    PathsComplete(out, ms, paths);
    PathsInOrder(out, ms, paths);
    paths
  }

  /** The positions of the matches, in the order `findall` lists them. */
  lemma PathsInOrder(out: string, ms: seq<(nat, string)>, paths: seq<string>)
    requires |paths| == |ms| && forall k :: 0 <= k < |ms| ==> paths[k] == ms[k].1
    requires forall k :: 0 <= k < |ms| ==> ms[k].0 < |out| && DriveAt(out, ms[k].0) == Some(ms[k].1)
    requires forall k :: 0 <= k < |ms| - 1 ==> ms[k].0 + 5 + |ms[k].1| <= ms[k + 1].0
    requires forall i :: 0 <= i < |out| && DriveAt(out, i).Some? ==> exists k :: 0 <= k < |ms| && ms[k].0 == i
    ensures exists pos :: MatchPositions(out, paths, pos)
  {
    var pos := seq(|ms|, k requires 0 <= k < |ms| => ms[k].0);
    forall i | 0 <= i < |out| && DriveAt(out, i).Some? ensures i in pos {
      var k :| 0 <= k < |ms| && ms[k].0 == i;
      assert pos[k] == i;
    }
    assert MatchPositions(out, paths, pos);
  }

  /** Every listed path is the match at its position. */
  lemma PathsFound(out: string, ms: seq<(nat, string)>, paths: seq<string>)
    requires |paths| == |ms| && forall k :: 0 <= k < |ms| ==> paths[k] == ms[k].1
    requires forall k :: 0 <= k < |ms| ==> ms[k].0 < |out| && DriveAt(out, ms[k].0) == Some(ms[k].1)
    ensures forall k :: 0 <= k < |paths| ==>
      IsDrivePath(paths[k]) && exists i :: 0 <= i < |out| && DriveAt(out, i) == Some(paths[k])
  {
    forall k | 0 <= k < |paths|
      ensures IsDrivePath(paths[k]) && exists i :: 0 <= i < |out| && DriveAt(out, i) == Some(paths[k])
    {
      assert DriveAt(out, ms[k].0) == Some(paths[k]);
      DriveAtShape(out, ms[k].0);
    }
  }

  /** Every match has its path listed. */
  lemma PathsComplete(out: string, ms: seq<(nat, string)>, paths: seq<string>)
    requires |paths| == |ms| && forall k :: 0 <= k < |ms| ==> paths[k] == ms[k].1
    requires forall k :: 0 <= k < |ms| ==> ms[k].0 < |out| && DriveAt(out, ms[k].0) == Some(ms[k].1)
    requires forall i :: 0 <= i < |out| && DriveAt(out, i).Some? ==> exists k :: 0 <= k < |ms| && ms[k].0 == i
    ensures forall i :: 0 <= i < |out| && DriveAt(out, i).Some? ==> DriveAt(out, i).value in paths
  {
    forall i | 0 <= i < |out| && DriveAt(out, i).Some? ensures DriveAt(out, i).value in paths {
      var k :| 0 <= k < |ms| && ms[k].0 == i;
      assert paths[k] == DriveAt(out, i).value;
    }
  }

  // The two temperature-line patterns.

  /**
   * Where the label of the first pattern ends: after `Temperature:`,
   * `Current<ws>Temperature:` or `Current<ws>Drive<ws>Temperature:` at the
   * start of the line, `<ws>` being one white-space character.
   */
  function LabelEnd(t: string): (e: Option<nat>)
    ensures e.Some? ==> e.value <= |t| && IsLabel(t[..e.value])
  {
    if StartsWith(t, "Temperature:") then
      Some(12)
    else if |t| > 8 && t[..7] == "Current" && IsSpace(t[7]) then
      if |t| > 14 && t[8..13] == "Drive" && IsSpace(t[13]) && StartsWith(t[14..], "Temperature:") then
        var h := t[..26];
        assert h[..7] == t[..7] && h[7] == t[7] && h[8..13] == t[8..13] && h[13] == t[13];
        assert h[14..] == t[14..][..12];
        Some(26)
      else if StartsWith(t[8..], "Temperature:") then
        var h := t[..20];
        assert h[..7] == t[..7] && h[7] == t[7];
        assert h[8..] == t[8..][..12];
        Some(20)
      else
        None
    else
      None
  }

  /** The three labels of the first pattern, each `\s` being one white-space character. */
  predicate IsLabel(head: string) {
    || head == "Temperature:"
    || (|head| == 20 && head[..7] == "Current" && IsSpace(head[7]) && head[8..] == "Temperature:")
    || (&& |head| == 26 && head[..7] == "Current" && IsSpace(head[7])
        && head[8..13] == "Drive" && IsSpace(head[13]) && head[14..] == "Temperature:")
  }

  /** A text starting with a label: the label ends where the label pattern says it does. */
  lemma LabelEndOf(head: string, t: string)
    requires IsLabel(head) && |head| <= |t| && t[..|head|] == head
    ensures LabelEnd(t) == Some(|head|)
  {
    if head != "Temperature:" {
      assert t[0] == head[0] == head[..7][0] == 'C';
      assert |t| >= 12 ==> t[..12][0] == 'C';
      assert t[..7] == head[..7] && t[7] == head[7];
      if |head| == 20 {
        assert t[8] == head[8] == head[8..][0] == 'T';
        assert |t| >= 13 ==> t[8..13][0] == 'T';
        assert t[8..][..12] == head[8..];
      } else {
        assert t[8..13] == head[8..13] && t[13] == head[13];
        assert t[14..][..12] == head[14..];
      }
    }
  }

  /** `\d+` at `k`: a greedy run of digits and its value. */
  function UnsignedAt(t: string, k: nat): (r: Option<int>)
    requires k <= |t|
  {
    var n := RunFrom(t, k, Digits);
    if n > 0 then Some(DecimalValue(t[k..k + n])) else None
  }

  /** `\s*(-?\d+)` at `j`: optional white space, an optional minus, then a greedy run of digits. */
  function SignedAt(t: string, j: nat): (r: Option<int>)
    requires j <= |t|
  {
    var k := j + RunFrom(t, j, Spaces);
    if k < |t| && t[k] == '-' then
      match UnsignedAt(t, k + 1)
      case Some(v) => Some(-v)
      case None => None
    else
      UnsignedAt(t, k)
  }

  /** `re.search(r"^(?:Current(?:\sDrive)?\s)?Temperature:\s*(-?\d+)", t)` and its group. */
  function LabelPattern(t: string): Option<int> {
    match LabelEnd(t)
    case None => None
    case Some(e) => SignedAt(t, e)
  }

  /** The text before `word<ws>` at the end, `<ws>` being one or more white-space characters. */
  function BeforeWord(x: string, word: string): (r: Option<string>)
    ensures r.Some? ==> |r.value| < |x| && r.value == x[..|r.value|]
  {
    var w := RunBack(x, Spaces);
    if w > 0 && EndsWith(x[..|x| - w], word) then Some(x[..|x| - w - |word|]) else None
  }

  /** The text before `---<ws>Temperature` or `---<ws>Current<ws>Temperature` at the end, white space included. */
  function BeforeDashes(t: string): (r: Option<string>)
    ensures r.Some? ==> |r.value| < |t| && r.value == t[..|r.value|]
  {
    if !EndsWith(t, "Temperature") then None
    else
      var a := t[..|t| - 11];
      match BeforeWord(a, "---")
      case Some(c) => Some(c)
      case None =>
        match BeforeWord(a, "Current")
        case None => None
        case Some(b) => BeforeWord(b, "---")
  }

  /**
   * `-?\d+` ending the text: the leftmost match takes the whole digit run,
   * and the minus sign right in front of it.
   */
  function SignedEnd(d: string): Option<int> {
    var n := RunBack(d, Digits);
    if n == 0 then None
    else
      var v: int := DecimalValue(d[|d| - n..]);
      if n < |d| && d[|d| - n - 1] == '-' then Some(-v) else Some(v)
  }

  /** `(-?\d+)\s+` ending the text before the dashes. */
  function SignedBefore(c: string): Option<int> {
    var w := RunBack(c, Spaces);
    if w == 0 then None else SignedEnd(c[..|c| - w])
  }

  /** `re.search(r"(-?\d+)\s+---\s+(?:Current\s+)?Temperature\Z", t)` and its group. */
  function RowPattern(t: string): Option<int> {
    match BeforeDashes(t)
    case None => None
    case Some(c) => SignedBefore(c)
  }

  /** One `smartctl` line: the stripped line against the label pattern first, then the row pattern. */
  function LineTemp(line: string): Option<int> {
    var t := Strip(line);
    match LabelPattern(t)
    case Some(v) => Some(v)
    case None => RowPattern(t)
  }

  /** Line `i` is the first line that `read` accepts. */
  predicate FirstHit(lines: seq<string>, read: string -> Option<int>, i: int) {
    && 0 <= i < |lines|
    && read(lines[i]).Some?
    && forall j :: 0 <= j < i ==> read(lines[j]).None?
  }

  /**
   * The loop of `get_drive_temp` with the line reader as a parameter: lines in
   * order, and the first line the reader accepts decides.
   */
  function FirstMatch(lines: seq<string>, read: string -> Option<int>): (r: Option<int>)
    ensures r.None? <==> forall i :: 0 <= i < |lines| ==> read(lines[i]).None?
    ensures r.Some? ==> exists i :: FirstHit(lines, read, i) && read(lines[i]) == r
  {
    if |lines| == 0 then
      None
    else if read(lines[0]).Some? then
      assert FirstHit(lines, read, 0);
      read(lines[0])
    else
      var r := FirstMatch(lines[1..], read);
      assert forall i :: 1 <= i < |lines| ==> lines[1..][i - 1] == lines[i];
      assert r.Some? ==> exists i :: FirstHit(lines, read, i) && read(lines[i]) == r by {
        if r.Some? {
          var i :| FirstHit(lines[1..], read, i) && read(lines[1..][i]) == r;
          assert FirstHit(lines, read, i + 1);
        }
      }
      r
  }

  /** The temperature `get_drive_temp` finds in the filtered `smartctl` lines, if any. */
  function ScanTemperature(lines: seq<string>): Option<int> {
    FirstMatch(lines, LineTemp)
  }
}

=== FILE: exec.dfy ===
/**
 * The boundary to the remote executors. `ipmitool` on the management
 * controller and the SSH shell are both modelled as an oracle from the
 * command text to its reply; an operation returns the new cached state,
 * the commands it issued in order, and its value or the exception it raised.
 */
module Exec {
  import opened Wrappers

  /** A command's reply: its standard output as one text and as lines, or a transport failure. */
  datatype Reply = Output(stdout: string, lines: seq<string>) | Failed

  /** What the executor answers to each command text. */
  type Oracle = string -> Reply

  /** The exceptions the drivers can raise, by cause. */
  datatype Error =
    | Transport(command: string)   // the executor raised for this command
    | MissingField(line: string)   // `data[1]` on a row without a second field (IndexError)
    | BadNumber(text: string)      // `float(...)` / `int(...)` on text that is not a number (ValueError)
    | BadFanMode(value: int)       // `FanMode(v)` with a value that is not a mode (ValueError)
    | EmptyReduction               // `np.max` of an empty list (ValueError)
    | IndexOutOfRange(index: int)  // `temps[core]` outside the list (IndexError)

  /** One operation on a device: its new cached state, the commands it issued, and its outcome. */
  datatype Step<S, T> = Step(state: S, sent: seq<string>, result: Result<T, Error>)
}

=== FILE: fru.dfy ===
/**
 * The `ipmitool fru` inventory listing read into a key/value map, as
 * `X9.board_part_number` does it: every line with a `:` maps its stripped
 * first field to its stripped second field, later lines overwriting earlier
 * ones with the same key.
 */
module Fru {
  import opened Wrappers
  import opened Text

  const BoardPartKey: string := "Board Part Number"

  /** What one line contributes: the stripped text before the first `:` and between the first and second `:`. */
  function Entry(line: string): (e: Option<(string, string)>)
    ensures e.Some? <==> ':' in line
    ensures e.Some? ==> e.value.0 == Strip(Split(line, ':')[0]) && e.value.1 == Strip(Split(line, ':')[1])
  {
    var data := Split(line, ':');
    if |data| > 1 then Some((Strip(data[0]), Strip(data[1]))) else None
  }

  /** The entry `i` is for `key`. */
  predicate HasKey(es: seq<Option<(string, string)>>, i: int, key: string) {
    0 <= i < |es| && es[i].Some? && es[i].value.0 == key
  }

  /** The entry `i` is the last one for `key`. */
  predicate LastEntry(es: seq<Option<(string, string)>>, i: int, key: string) {
    HasKey(es, i, key) && forall j :: i < j < |es| ==> !HasKey(es, j, key)
  }

  /** The entries of the lines, in order. */
  function Entries(lines: seq<string>): (es: seq<Option<(string, string)>>)
    ensures |es| == |lines|
    ensures forall i :: 0 <= i < |lines| ==> es[i] == Entry(lines[i])
  {
    seq(|lines|, i requires 0 <= i < |lines| => Entry(lines[i]))
  }

  /** `self.fru.update({key: value})` for each entry, in order. */
  function Assemble(es: seq<Option<(string, string)>>): map<string, string> {
    if |es| == 0 then map[]
    else
      var m := Assemble(es[..|es| - 1]);
      match es[|es| - 1]
      case None => m
      case Some(kv) => m[kv.0 := kv.1]
  }

  /** The dictionary `board_part_number` builds from the `fru` listing. */
  function ParseFru(lines: seq<string>): (m: map<string, string>)
    ensures forall key :: key in m <==> exists i :: HasKey(Entries(lines), i, key)
  {
    AssembleLastWins(Entries(lines));
    Assemble(Entries(lines))
  }

  /** A key is present exactly when some entry has it, and its value comes from the last such entry. */
  lemma {:induction false} AssembleLastWins(es: seq<Option<(string, string)>>)
    ensures forall key :: key in Assemble(es) <==> exists i :: HasKey(es, i, key)
    ensures forall key :: key in Assemble(es) ==>
      exists i :: LastEntry(es, i, key) && Assemble(es)[key] == es[i].value.1
  {
    if |es| > 0 {
      var init := es[..|es| - 1];
      var last := |es| - 1;
      AssembleLastWins(init);
      var m := Assemble(init);
      var r := Assemble(es);
      assert forall i, key :: 0 <= i < last ==> (HasKey(init, i, key) <==> HasKey(es, i, key));
      if es[last].None? {
        assert r == m;
        assert forall key :: !HasKey(es, last, key);
        forall key | key in r
          ensures exists i :: LastEntry(es, i, key) && r[key] == es[i].value.1
        {
          var i :| LastEntry(init, i, key) && m[key] == init[i].value.1;
          assert LastEntry(es, i, key);
        }
      } else {
        var kv := es[last].value;
        assert r == m[kv.0 := kv.1];
        assert LastEntry(es, last, kv.0);
        forall key | key in r && key != kv.0
          ensures exists i :: LastEntry(es, i, key) && r[key] == es[i].value.1
        {
          var i :| LastEntry(init, i, key) && m[key] == init[i].value.1;
          assert !HasKey(es, last, key);
          assert LastEntry(es, i, key);
        }
      }
    }
  }

  /**
   * The FRU map has a key exactly when some line with a `:` has it as its
   * stripped first field, and the value is the stripped second field of the
   * last such line.
   */
  lemma ParseFruLastWins(lines: seq<string>, key: string)
    ensures key in ParseFru(lines) <==> exists i :: HasKey(Entries(lines), i, key)
    ensures key in ParseFru(lines) ==>
      exists i :: LastEntry(Entries(lines), i, key) && ParseFru(lines)[key] == Entry(lines[i]).value.1
  {
    AssembleLastWins(Entries(lines));
  }

  /** `fru.get("Board Part Number", "")`. */
  function PartNumber(fru: map<string, string>): string {
    if BoardPartKey in fru then fru[BoardPartKey] else ""
  }

  /**
   * The part number of a listing: the value on the last line whose key is
   * `Board Part Number`, or the empty string when no line has that key.
   */
  lemma PartNumberOfListing(lines: seq<string>)
    ensures (forall i :: !HasKey(Entries(lines), i, BoardPartKey)) ==> PartNumber(ParseFru(lines)) == ""
    ensures forall i :: LastEntry(Entries(lines), i, BoardPartKey) ==> PartNumber(ParseFru(lines)) == Entry(lines[i]).value.1
  {
    var es := Entries(lines);
    ParseFruLastWins(lines, BoardPartKey);
    forall i | LastEntry(es, i, BoardPartKey)
      ensures PartNumber(ParseFru(lines)) == Entry(lines[i]).value.1
    {
      var j :| LastEntry(es, j, BoardPartKey) && ParseFru(lines)[BoardPartKey] == Entry(lines[j]).value.1;
      LastEntryUnique(es, i, j, BoardPartKey);
    }
  }

  /** A key has at most one last entry. */
  lemma LastEntryUnique(es: seq<Option<(string, string)>>, i: int, j: int, key: string)
    requires LastEntry(es, i, key) && LastEntry(es, j, key)
    ensures i == j
  {
    assert HasKey(es, i, key) && HasKey(es, j, key);
  }
}

=== FILE: sdr.dfy ===
/**
 * Reduction of an `ipmitool -c sdr` sensor table (comma-separated rows) to
 * one temperature, as `X9.get_temp` and `Gpu.get_temp` do it: for each name
 * of a fixed, ordered list of sensor names, in order, every row whose first
 * field is that name and whose second field is non-empty contributes its
 * reading; the readings are then reduced by maximum or indexed.
 */
module Sdr {
  import opened Wrappers
  import opened Text
  import opened Exec

  const CpuSensors: seq<string> := ["CPU Temp", "CPU1 Temp", "CPU2 Temp"]

  const GpuSensors: seq<string> :=
    ["GPU Temp", "GPU1 Temp", "GPU2 Temp", "GPU3 Temp", "GPU4 Temp", "GPU5 Temp", "GPU6 Temp"]

  // The table as it is meant to be read, with no error handling.

  /** The reading a well-formed row holds for `sensor`, if it is that sensor's row. */
  function RowValue(sensor: string, line: string): Option<int> {
    var data := Split(line, ',');
    if data[0] == sensor && |data| >= 2 && data[1] != "" then ParseInt(data[1]) else None
  }

  /** A row of `sensor` on which the source raises: no second field, or a non-empty one that is not a number. */
  predicate Malformed(sensor: string, line: string) {
    var data := Split(line, ',');
    data[0] == sensor && (|data| < 2 || (data[1] != "" && ParseInt(data[1]).None?))
  }

  /** The readings of one sensor, in line order. */
  function Column(sensor: string, lines: seq<string>): seq<int> {
    if |lines| == 0 then []
    else
      var here := RowValue(sensor, lines[0]);
      (if here.Some? then [here.value] else []) + Column(sensor, lines[1..])
  }

  /** All readings: by position in the sensor list first, then by line order. */
  function Table(sensors: seq<string>, lines: seq<string>): seq<int> {
    if |sensors| == 0 then [] else Column(sensors[0], lines) + Table(sensors[1..], lines)
  }

  ghost predicate AnyMalformed(sensors: seq<string>, lines: seq<string>) {
    exists i, j :: 0 <= i < |sensors| && 0 <= j < |lines| && Malformed(sensors[i], lines[j])
  }

  /** `v` is the reading of some row of some listed sensor. */
  ghost predicate IsReading(sensors: seq<string>, lines: seq<string>, v: int) {
    exists i, j :: 0 <= i < |sensors| && 0 <= j < |lines| && RowValue(sensors[i], lines[j]) == Some(v)
  }

  /** A `-c sdr` row: sensor name, reading, then the remaining fields. */
  function Row(sensor: string, reading: int, rest: string): string {
    sensor + "," + IntToDecimal(reading) + "," + rest
  }

  /** A rendered row reads back as its own reading, and as nothing for any other sensor name. */
  lemma RowFields(sensor: string, reading: int, rest: string)
    requires ',' !in sensor
    ensures Split(Row(sensor, reading, rest), ',') == [sensor, IntToDecimal(reading)] + Split(rest, ',')
  {
    DecimalHasNoComma(reading);
    SplitTwo(sensor, IntToDecimal(reading), rest);
  }

  /** Two comma-free fields, then anything: the first two fields of the split. */
  lemma SplitTwo(a: string, b: string, rest: string)
    requires ',' !in a && ',' !in b
    ensures Split(a + "," + b + "," + rest, ',') == [a, b] + Split(rest, ',')
  {
    SplitAt(b, rest, ',');
    CommaRegroup(a, b, rest);
    SplitAt(a, b + [','] + rest, ',');
    assert [a] + ([b] + Split(rest, ',')) == [a, b] + Split(rest, ',');
  }

  /** Two comma-joined fields, regrouped around the first comma. */
  lemma CommaRegroup(a: string, b: string, rest: string)
    ensures a + "," + b + "," + rest == a + [','] + (b + [','] + rest)
  {
  }

  lemma DecimalHasNoComma(n: int)
    ensures ',' !in IntToDecimal(n)
  {
    var t := IntToDecimal(n);
    if n < 0 {
      assert t == "-" + NatToDecimal(-n);
      assert AllDigits(t[1..]);
      assert forall i :: 0 <= i < |t| ==> t[i] != ',';
    } else {
      assert AllDigits(t);
    }
  }

  lemma RowRoundTrip(sensor: string, reading: int, rest: string)
    requires ',' !in sensor
    ensures RowValue(sensor, Row(sensor, reading, rest)) == Some(reading)
    ensures forall other :: other != sensor ==> RowValue(other, Row(sensor, reading, rest)) == None
    ensures forall other :: !Malformed(other, Row(sensor, reading, rest))
  {
    var t := IntToDecimal(reading);
    var data := Split(Row(sensor, reading, rest), ',');
    RowFields(sensor, reading, rest);
    assert data[0] == sensor && data[1] == t && |data| >= 2;
    ParseIntOfDecimal(reading);
    assert t != "" by {
      if reading < 0 {
        assert t == "-" + NatToDecimal(-reading);
      }
    }
  }

  // The source's loops.

  /**
   * One row for one sensor name, as the loop body tests it: `sensor in line`,
   * then `data[0] == sensor and data[1] != ""`, then `float(data[1])`.
   */
  function RowReading(sensor: string, line: string): (r: Result<Option<int>, Error>)
    ensures r.Failure? <==> Malformed(sensor, line)
    ensures r.Success? ==> r.value == RowValue(sensor, line)
  {
    FirstFieldIsPrefix(line, ',');
    assert Split(line, ',')[0] == sensor ==> OccursAt(line, sensor, 0);
    if !Contains(line, sensor) then Success(None)
    else
      var data := Split(line, ',');
      if data[0] != sensor then Success(None)
      else if |data| < 2 then Failure(MissingField(line))
      else if data[1] == "" then Success(None)
      else
        match ParseInt(data[1])
        case None => Failure(BadNumber(data[1]))
        case Some(v) => Success(Some(v))
  }

  /** The inner loop: every line, in order, for one sensor name. */
  function SensorReadings(sensor: string, lines: seq<string>): (r: Result<seq<int>, Error>)
    ensures r.Failure? <==> exists j :: 0 <= j < |lines| && Malformed(sensor, lines[j])
    ensures r.Success? ==> r.value == Column(sensor, lines)
  {
    if |lines| == 0 then Success([])
    else
      assert forall j :: 1 <= j < |lines| ==> lines[1..][j - 1] == lines[j];
      var here :- RowReading(sensor, lines[0]);
      var rest :- SensorReadings(sensor, lines[1..]);
      Success((if here.Some? then [here.value] else []) + rest)
  }

  /** The outer loop: every sensor name, in list order. */
  function Readings(sensors: seq<string>, lines: seq<string>): (r: Result<seq<int>, Error>)
    ensures r.Failure? <==> AnyMalformed(sensors, lines)
    ensures r.Success? ==> r.value == Table(sensors, lines)
  {
    if |sensors| == 0 then Success([])
    else
      assert forall i :: 1 <= i < |sensors| ==> sensors[1..][i - 1] == sensors[i];
      var here :- SensorReadings(sensors[0], lines);
      var rest :- Readings(sensors[1..], lines);
      Success(here + rest)
  }

  /** `v` is the reading of some row of `sensor`. */
  ghost predicate InColumn(sensor: string, lines: seq<string>, v: int) {
    exists j :: 0 <= j < |lines| && RowValue(sensor, lines[j]) == Some(v)
  }

  /** A value is in the column exactly when some row of that sensor holds it. */
  lemma {:induction false} ColumnMembers(sensor: string, lines: seq<string>, v: int)
    ensures v in Column(sensor, lines) <==> InColumn(sensor, lines, v)
  {
    if |lines| > 0 {
      ColumnMembers(sensor, lines[1..], v);
      ColumnSplit(sensor, lines, v);
    }
  }

  /** A row holding `v` is the first row or one of the rows after it. */
  lemma ColumnSplit(sensor: string, lines: seq<string>, v: int)
    requires |lines| > 0
    ensures v in Column(sensor, lines) <==> RowValue(sensor, lines[0]) == Some(v) || v in Column(sensor, lines[1..])
    ensures InColumn(sensor, lines, v) <==> RowValue(sensor, lines[0]) == Some(v) || InColumn(sensor, lines[1..], v)
  {
    ColumnHead(sensor, lines, v);
    InColumnSplit(sensor, lines, v);
  }

  lemma ColumnHead(sensor: string, lines: seq<string>, v: int)
    requires |lines| > 0
    ensures v in Column(sensor, lines) <==> RowValue(sensor, lines[0]) == Some(v) || v in Column(sensor, lines[1..])
  {
    var here := RowValue(sensor, lines[0]);
    var head := if here.Some? then [here.value] else [];
    assert Column(sensor, lines) == head + Column(sensor, lines[1..]);
    InOptionThen(v, here, Column(sensor, lines[1..]));
  }

  /** Membership in an optional value followed by a list. */
  lemma InOptionThen(v: int, o: Option<int>, rest: seq<int>)
    ensures v in (if o.Some? then [o.value] else []) + rest <==> o == Some(v) || v in rest
  {
  }

  lemma InColumnSplit(sensor: string, lines: seq<string>, v: int)
    requires |lines| > 0
    ensures InColumn(sensor, lines, v) <==> RowValue(sensor, lines[0]) == Some(v) || InColumn(sensor, lines[1..], v)
  {
    if InColumn(sensor, lines[1..], v) {
      var j :| 0 <= j < |lines[1..]| && RowValue(sensor, lines[1..][j]) == Some(v);
      assert lines[1..][j] == lines[j + 1];
    }
    if InColumn(sensor, lines, v) {
      var j :| 0 <= j < |lines| && RowValue(sensor, lines[j]) == Some(v);
      if j > 0 {
        assert lines[1..][j - 1] == lines[j];
      }
    }
  }

  /** A value is in the table exactly when it is a reading of some listed sensor. */
  lemma {:induction false} TableMembers(sensors: seq<string>, lines: seq<string>, v: int)
    ensures v in Table(sensors, lines) <==> IsReading(sensors, lines, v)
  {
    if |sensors| > 0 {
      TableMembers(sensors[1..], lines, v);
      ColumnMembers(sensors[0], lines, v);
      TableSplit(sensors, lines, v);
    }
  }

  /** A reading of a listed sensor belongs to the first sensor or to one of the sensors after it. */
  lemma TableSplit(sensors: seq<string>, lines: seq<string>, v: int)
    requires |sensors| > 0
    ensures v in Table(sensors, lines) <==> v in Column(sensors[0], lines) || v in Table(sensors[1..], lines)
    ensures IsReading(sensors, lines, v) <==> InColumn(sensors[0], lines, v) || IsReading(sensors[1..], lines, v)
  {
    assert Table(sensors, lines) == Column(sensors[0], lines) + Table(sensors[1..], lines);
    ReadingLater(sensors, lines, v);
    ReadingFirstOrLater(sensors, lines, v);
  }

  /** A reading of the first sensor or of a later one is a reading of the list. */
  lemma ReadingLater(sensors: seq<string>, lines: seq<string>, v: int)
    requires |sensors| > 0
    ensures InColumn(sensors[0], lines, v) || IsReading(sensors[1..], lines, v) ==> IsReading(sensors, lines, v)
  {
    if IsReading(sensors[1..], lines, v) {
      var i, j :| 0 <= i < |sensors[1..]| && 0 <= j < |lines| && RowValue(sensors[1..][i], lines[j]) == Some(v);
      LaterIsReading(sensors, lines, v, i, j);
    }
    if InColumn(sensors[0], lines, v) {
      var j :| 0 <= j < |lines| && RowValue(sensors[0], lines[j]) == Some(v);
      assert RowValue(sensors[0], lines[j]) == Some(v);
    }
  }

  /** A reading of the sensors after the first is a reading of the list. */
  lemma LaterIsReading(sensors: seq<string>, lines: seq<string>, v: int, i: nat, j: nat)
    requires i < |sensors| - 1 && j < |lines| && RowValue(sensors[1..][i], lines[j]) == Some(v)
    ensures IsReading(sensors, lines, v)
  {
    assert RowValue(sensors[i + 1], lines[j]) == Some(v);
  }

  /** A reading of the list is one of the first sensor or of a later one. */
  lemma ReadingFirstOrLater(sensors: seq<string>, lines: seq<string>, v: int)
    requires |sensors| > 0
    ensures IsReading(sensors, lines, v) ==> InColumn(sensors[0], lines, v) || IsReading(sensors[1..], lines, v)
  {
    if IsReading(sensors, lines, v) {
      var i, j :| 0 <= i < |sensors| && 0 <= j < |lines| && RowValue(sensors[i], lines[j]) == Some(v);
      if i > 0 {
        ReadingOfLater(sensors, lines, v, i, j);
      }
    }
  }

  /** A row of a sensor after the first is a reading of the sensors after the first. */
  lemma ReadingOfLater(sensors: seq<string>, lines: seq<string>, v: int, i: nat, j: nat)
    requires 0 < i < |sensors| && j < |lines| && RowValue(sensors[i], lines[j]) == Some(v)
    ensures IsReading(sensors[1..], lines, v)
  {
    assert RowValue(sensors[1..][i - 1], lines[j]) == Some(v);
  }

  /** `np.max(xs)`: the largest element of a non-empty list. */
  function Max(xs: seq<int>): (m: int)
    requires |xs| > 0
    ensures m in xs
    ensures forall x :: x in xs ==> x <= m
  {
    if |xs| == 1 then xs[0]
    else
      var rest := Max(xs[1..]);
      assert forall x :: x in xs ==> x == xs[0] || x in xs[1..];
      if xs[0] >= rest then xs[0] else rest
  }

  /** The larger of two readings. */
  lemma MaxOfPair(x: int, y: int)
    ensures Max([x, y]) == if x < y then y else x
  {
  }

  /** Python's `xs[k]`: a negative index counts from the end; outside the list it raises IndexError. */
  function PyIndex(xs: seq<int>, k: int): (r: Result<int, Error>)
    ensures r.Success? <==> -|xs| <= k < |xs|
    ensures r.Success? ==> r.value == xs[if k < 0 then |xs| + k else k]
  {
    if 0 <= k < |xs| then Success(xs[k])
    else if -|xs| <= k < 0 then Success(xs[|xs| + k])
    else Failure(IndexOutOfRange(k))
  }

  /** `int(np.max(temps))` without a core index, `int(temps[core])` with one. */
  function Reduce(temps: seq<int>, core: Option<int>): (r: Result<int, Error>)
    ensures core.None? ==> (r.Success? <==> |temps| > 0)
    ensures core.None? && r.Success? ==> r.value in temps && forall t :: t in temps ==> t <= r.value
    ensures core.Some? ==> r == PyIndex(temps, core.value)
  {
    match core
    case None => if |temps| == 0 then Failure(EmptyReduction) else Success(Max(temps))
    case Some(k) => PyIndex(temps, k)
  }

  /** The table reduction of `X9.get_temp` (CPU sensors, optional core index). */
  function CpuTemp(lines: seq<string>, core: Option<int>): (r: Result<int, Error>)
    ensures AnyMalformed(CpuSensors, lines) ==> r.Failure?
    ensures !AnyMalformed(CpuSensors, lines) ==> r == Reduce(Table(CpuSensors, lines), core)
  {
    var temps :- Readings(CpuSensors, lines);
    Reduce(temps, core)
  }

  /** The table reduction of `Gpu.get_temp`: always the maximum over the GPU sensors. */
  function GpuTemp(lines: seq<string>): (r: Result<int, Error>)
    ensures r.Success? <==> !AnyMalformed(GpuSensors, lines) && |Table(GpuSensors, lines)| > 0
    ensures r.Success? ==> IsReading(GpuSensors, lines, r.value)
    ensures r.Success? ==> forall v :: IsReading(GpuSensors, lines, v) ==> v <= r.value
  {
    var temps :- Readings(GpuSensors, lines);
    assert forall v :: IsReading(GpuSensors, lines, v) ==> v in temps by {
      forall v | IsReading(GpuSensors, lines, v) {
        TableMembers(GpuSensors, lines, v);
      }
    }
    if |temps| == 0 then Failure(EmptyReduction)
    else
      var m := Max(temps);
      TableMembers(GpuSensors, lines, m);
      Success(m)
  }

  /**
   * Without a core index the CPU temperature is the largest reading of any
   * well-formed `CPU Temp` / `CPU1 Temp` / `CPU2 Temp` row, and it is an
   * error exactly when a row is malformed or there is no reading at all.
   */
  lemma CpuTempIsMaximum(lines: seq<string>)
    ensures CpuTemp(lines, None).Success? <==> !AnyMalformed(CpuSensors, lines) && exists v :: IsReading(CpuSensors, lines, v)
    ensures CpuTemp(lines, None).Success? ==> IsReading(CpuSensors, lines, CpuTemp(lines, None).value)
    ensures CpuTemp(lines, None).Success? ==> forall v :: IsReading(CpuSensors, lines, v) ==> v <= CpuTemp(lines, None).value
  {
    var table := Table(CpuSensors, lines);
    forall v {
      TableMembers(CpuSensors, lines, v);
    }
    if |table| > 0 {
      assert table[0] in table;
    }
  }

  /** With a core index `k` the CPU temperature is entry `k` (Python indexing) of the ordered readings. */
  lemma CpuTempAtCore(lines: seq<string>, k: int)
    requires !AnyMalformed(CpuSensors, lines)
    ensures var temps := Table(CpuSensors, lines);
      && (CpuTemp(lines, Some(k)).Success? <==> -|temps| <= k < |temps|)
      && (0 <= k < |temps| ==> CpuTemp(lines, Some(k)) == Success(temps[k]))
  {
  }
}

=== FILE: smart.dfy ===
/**
 * The SMART drive device: it lists the host's drives from `fdisk -l`,
 * reads a SATA drive that `hdparm` reports in standby as the fallback
 * without asking `smartctl`, reads every other drive's temperature from the
 * filtered `smartctl -x` lines, and reports the hottest
 * drive. The SSH shell is an oracle from command text to reply; credentials,
 * logging and the async transport are left to the caller.
 */
module Smart {
  import opened Wrappers
  import opened Text
  import opened Exec
  import opened Sdr
  import opened DriveText

  const FdiskCommand: string := "fdisk -l"

  function HdparmCommand(path: string): string {
    "hdparm -C " + path
  }

  function SmartctlCommand(path: string): string {
    "smartctl -x " + path + " | grep -E \"Temperature|temperature\""
  }

  /** The `fallback_temp` default `get_temp` relies on. */
  const DefaultFallback: int := 30

  /** The drive list (`None` until given or fetched) and the last temperature. */
  datatype SmartDevice = SmartDevice(drives: Option<seq<string>>, temp: Option<int>)

  /** A device built with an optional fixed drive list; the base class starts the temperature at `None`. */
  function NewSmart(drives: Option<seq<string>>): (d: SmartDevice)
    ensures d.drives == drives && d.temp.None?
  {
    SmartDevice(drives, None)
  }

  /** `get_drive_list`: the drive paths `fdisk -l` prints; a shell failure propagates. */
  function GetDriveList(d: SmartDevice, shell: Oracle): (s: Step<SmartDevice, seq<string>>)
    ensures s.state == d && s.sent == [FdiskCommand]
    ensures s.result.Success? <==> shell(FdiskCommand).Output?
    ensures s.result.Success? ==> var out := shell(FdiskCommand).stdout;
      && (forall k :: 0 <= k < |s.result.value| ==>
           IsDrivePath(s.result.value[k]) && exists i :: 0 <= i < |out| && DriveAt(out, i) == Some(s.result.value[k]))
      && (forall i :: 0 <= i < |out| && DriveAt(out, i).Some? ==> DriveAt(out, i).value in s.result.value)
      && (exists pos :: MatchPositions(out, s.result.value, pos))
    ensures s.result.Failure? ==> s.result.error == Transport(FdiskCommand)
  {
    match shell(FdiskCommand)
    case Failed => Step(d, [FdiskCommand], Failure(Transport(FdiskCommand)))
    case Output(out, _) => Step(d, [FdiskCommand], Success(DrivePaths(out)))
  }

  /**
   * `re.match(r"^/dev/sd[a-z]+$", path)`: a SATA path, where `$` also
   * accepts one newline that ends the text.
   */
  predicate IsSataName(p: string) {
    IsSdPath(p) || (|p| > 0 && p[|p| - 1] == '\n' && IsSdPath(p[..|p| - 1]))
  }

  /**
   * `is_standby`: only SATA paths are asked; the drive is in standby when
   * the lower-cased `hdparm -C` output contains `standby`, and a shell
   * failure counts as awake. Returns the answer and the commands sent.
   */
  function IsStandby(path: string, shell: Oracle): (r: (bool, seq<string>))
    ensures r.1 == (if IsSataName(path) then [HdparmCommand(path)] else [])
    ensures r.0 <==> (IsSataName(path) && shell(HdparmCommand(path)).Output?
      && exists i :: OccursAt(Lower(shell(HdparmCommand(path)).stdout), "standby", i))
  {
    if !IsSataName(path) then
      (false, [])
    else
      match shell(HdparmCommand(path))
      case Failed => (false, [HdparmCommand(path)])
      case Output(out, _) => (Contains(Lower(out), "standby"), [HdparmCommand(path)])
  }

  /**
   * `get_drive_temp`: the fallback for a drive in standby (no `smartctl`
   * command then), for a shell failure and for output without a recognised
   * line; otherwise the value of the first line that yields one.
   */
  function DriveTemp(path: string, fallback: int, shell: Oracle): (r: (int, seq<string>))
    ensures var (standby, asked) := IsStandby(path, shell);
      && (standby ==> r == (fallback, asked))
      && (!standby ==> r.1 == asked + [SmartctlCommand(path)])
    ensures var reply := shell(SmartctlCommand(path));
      r.0 != fallback ==> (!IsStandby(path, shell).0 && reply.Output?
        && exists i :: FirstHit(reply.lines, LineTemp, i) && LineTemp(reply.lines[i]) == Some(r.0))
    ensures var reply := shell(SmartctlCommand(path));
      !IsStandby(path, shell).0 && reply.Output? && ScanTemperature(reply.lines).Some? ==>
        r.0 == ScanTemperature(reply.lines).value
  {
    var (standby, asked) := IsStandby(path, shell);
    if standby then
      (fallback, asked)
    else
      var sent := asked + [SmartctlCommand(path)];
      match shell(SmartctlCommand(path))
      case Failed => (fallback, sent)
      case Output(_, lines) =>
        match ScanTemperature(lines)
        case Some(t) => (t, sent)
        case None => (fallback, sent)
  }

  /** The loop of `get_temp` over the drives: each drive's temperature, in order, and all commands sent. */
  function PollDrives(paths: seq<string>, fallback: int, shell: Oracle): (r: (seq<int>, seq<string>))
    ensures |r.0| == |paths|
  {
    if |paths| == 0 then
      ([], [])
    else
      var here := DriveTemp(paths[0], fallback, shell);
      var later := PollDrives(paths[1..], fallback, shell);
      ([here.0] + later.0, here.1 + later.1)
  }

  /** The `k`-th polled reading is the `k`-th drive's temperature. */
  lemma {:induction false} PollReadsEach(paths: seq<string>, fallback: int, shell: Oracle)
    ensures var temps := PollDrives(paths, fallback, shell).0;
      forall k :: 0 <= k < |paths| ==> temps[k] == DriveTemp(paths[k], fallback, shell).0
    decreases |paths|
  {
    if |paths| > 0 {
      PollReadsEach(paths[1..], fallback, shell);
      var temps := PollDrives(paths, fallback, shell).0;
      forall k | 0 < k < |paths| ensures temps[k] == DriveTemp(paths[k], fallback, shell).0 {
        assert paths[k] == paths[1..][k - 1];
      }
    }
  }

  /** The drive list must be fetched: it was never given, or it is empty. */
  predicate NeedsList(d: SmartDevice) {
    d.drives.None? || d.drives == Some([])
  }

  /**
   * `get_temp`: fetch and cache the drive list when there is none, read
   * every drive with the default fallback, and cache and return the largest
   * reading. An `fdisk` failure and an empty drive list raise.
   */
  function GetTemp(d: SmartDevice, shell: Oracle): (s: Step<SmartDevice, int>)
    ensures NeedsList(d) ==> |s.sent| > 0 && s.sent[0] == FdiskCommand
    ensures NeedsList(d) && shell(FdiskCommand).Failed? ==>
      s == Step(d, [FdiskCommand], Failure(Transport(FdiskCommand)))
    ensures NeedsList(d) && shell(FdiskCommand).Output? ==>
      var paths := DrivePaths(shell(FdiskCommand).stdout);
      s.state.drives == Some(paths) && s.sent == [FdiskCommand] + PollDrives(paths, DefaultFallback, shell).1
    ensures !NeedsList(d) ==>
      s.state.drives == d.drives && s.sent == PollDrives(d.drives.value, DefaultFallback, shell).1
    ensures s.result.Failure? ==> s.state.temp == d.temp
    ensures !(NeedsList(d) && shell(FdiskCommand).Failed?) ==>
      && s.state.drives.Some?
      && (s.result.Failure? <==> s.state.drives == Some([]))
      && (s.result.Failure? ==> s.result.error == EmptyReduction)
    ensures s.result.Success? ==>
      && s.state.temp == Some(s.result.value)
      && s.state.drives.Some?
      && (exists p :: p in s.state.drives.value && DriveTemp(p, DefaultFallback, shell).0 == s.result.value)
      && (forall p :: p in s.state.drives.value ==> DriveTemp(p, DefaultFallback, shell).0 <= s.result.value)
  {
    var fetched := if NeedsList(d) then GetDriveList(d, shell) else Step(d, [], Success(d.drives.value));
    match fetched.result
    case Failure(e) => Step(d, fetched.sent, Failure(e))
    case Success(paths) =>
      var d1 := d.(drives := Some(paths));
      var (temps, sent) := PollDrives(paths, DefaultFallback, shell);
      if |temps| == 0 then
        Step(d1, fetched.sent + sent, Failure(EmptyReduction))
      else
        var m := Max(temps);
        HottestDrive(paths, DefaultFallback, shell);
        Step(d1.(temp := Some(m)), fetched.sent + sent, Success(m))
  }

  /** The largest polled temperature belongs to some drive and is at least every drive's. */
  lemma HottestDrive(paths: seq<string>, fallback: int, shell: Oracle)
    requires |paths| > 0
    ensures var m := Max(PollDrives(paths, fallback, shell).0);
      && (exists p :: p in paths && DriveTemp(p, fallback, shell).0 == m)
      && (forall p :: p in paths ==> DriveTemp(p, fallback, shell).0 <= m)
  {
    var temps := PollDrives(paths, fallback, shell).0;
    var m := Max(temps);
    PollReadsEach(paths, fallback, shell);
    forall p | p in paths ensures DriveTemp(p, fallback, shell).0 <= m {
      var k :| 0 <= k < |paths| && paths[k] == p;
      assert temps[k] in temps;
    }
    var k :| 0 <= k < |temps| && temps[k] == m;
    assert paths[k] in paths;
  }
}

=== FILE: smart_props.dfy ===
/** Properties of the SMART drive device: the temperature patterns read back what they match, and how polling combines drives. */
module SmartProps {
  import opened Wrappers
  import opened Text
  import opened Exec
  import opened Sdr
  import opened DriveText
  import opened Smart

  // The label pattern.

  /** A run of white space in front of text that does not start with white space. */
  lemma SpacesAt(t: string, j: nat, ws: string, after: string)
    requires j <= |t| && t[j..] == ws + after
    requires AllSpace(ws) && (after == [] || !IsSpace(after[0]))
    ensures RunFrom(t, j, Spaces) == |ws|
  {
    assert forall i :: j <= i < j + |ws| ==> t[i] == t[j..][i - j];
    assert j + |ws| < |t| ==> t[j + |ws|] == t[j..][|ws|];
    RunFromIs(t, j, Spaces, |ws|);
  }

  /** A run of digits in front of text that does not start with a digit. */
  lemma DigitsAt(t: string, k: nat, ds: string, after: string)
    requires k <= |t| && t[k..] == ds + after
    requires AllDigits(ds) && (after == [] || !IsDigit(after[0]))
    ensures RunFrom(t, k, Digits) == |ds| && t[k..k + |ds|] == ds
  {
    assert forall i :: k <= i < k + |ds| ==> t[i] == t[k..][i - k];
    assert k + |ds| < |t| ==> t[k + |ds|] == t[k..][|ds|];
    RunFromIs(t, k, Digits, |ds|);
    assert t[k..k + |ds|] == t[k..][..|ds|];
  }

  /** A run of digits that ends where the class ends is read as its value. */
  lemma UnsignedAtIs(t: string, k: nat, ds: string)
    requires k <= |t| && |ds| == RunFrom(t, k, Digits) && |ds| > 0
    requires t[k..k + |ds|] == ds
    ensures UnsignedAt(t, k) == Some(DecimalValue(ds) as int)
  {
  }

  /** `\s*(-?\d+)` where a minus sign follows the white space. */
  lemma SignedAtNegative(t: string, j: nat, k: nat, v: int)
    requires j <= |t| && k == j + RunFrom(t, j, Spaces)
    requires k < |t| && t[k] == '-' && UnsignedAt(t, k + 1).Some? && UnsignedAt(t, k + 1).value == -v
    ensures SignedAt(t, j) == Some(v)
  {
  }

  /** `\s*(-?\d+)` where a digit follows the white space. */
  lemma SignedAtNatural(t: string, j: nat, k: nat, v: int)
    requires j <= |t| && k == j + RunFrom(t, j, Spaces)
    requires k < |t| && t[k] != '-' && UnsignedAt(t, k).Some? && UnsignedAt(t, k).value == v
    ensures SignedAt(t, j) == Some(v)
  {
  }

  /** Where the minus sign stands after white space. */
  lemma MinusAt(t: string, j: nat, ws: string, after: string) returns (k: nat)
    requires j <= |t| && t[j..] == ws + ("-" + after) && AllSpace(ws)
    ensures k == j + RunFrom(t, j, Spaces) && k < |t| && t[k] == '-' && t[k + 1..] == after
  {
    k := j + |ws|;
    assert t[k..] == "-" + after by {
      assert t[k..] == t[j..][|ws|..];
    }
    SpacesAt(t, j, ws, "-" + after);
    MinusFirst(t, k, after);
  }

  /** Where the digits start after white space. */
  lemma DigitStartAt(t: string, j: nat, ws: string, after: string) returns (k: nat)
    requires j <= |t| && t[j..] == ws + after && AllSpace(ws) && |after| > 0 && IsDigit(after[0])
    ensures k == j + RunFrom(t, j, Spaces) && k <= |t| && t[k..] == after
  {
    k := j + |ws|;
    assert t[k..] == t[j..][|ws|..];
    DigitIsNotSpace(after[0]);
    SpacesAt(t, j, ws, after);
  }

  /** `\s*(-?\d+)` reads back a decimal written after white space, whatever non-digit follows it. */
  lemma SignedAtDecimal(t: string, j: nat, ws: string, n: int, rest: string)
    requires j <= |t| && t[j..] == ws + IntToDecimal(n) + rest
    requires AllSpace(ws) && (rest == [] || !IsDigit(rest[0]))
    ensures SignedAt(t, j) == Some(n)
  {
    if n < 0 {
      SignedAtNegativeDecimal(t, j, ws, n, rest);
    } else {
      SignedAtNaturalDecimal(t, j, ws, n, rest);
    }
  }

  lemma SignedAtNegativeDecimal(t: string, j: nat, ws: string, n: int, rest: string)
    requires n < 0 && j <= |t| && t[j..] == ws + IntToDecimal(n) + rest
    requires AllSpace(ws) && (rest == [] || !IsDigit(rest[0]))
    ensures SignedAt(t, j) == Some(n)
  {
    var m: nat := -n;
    assert t[j..] == ws + ("-" + (NatToDecimal(m) + rest)) by {
      NegativeDecimalPieces(t, j, ws, n, rest);
    }
    SignedAtMinusDecimal(t, j, ws, m, rest, n);
  }

  /** The decimal rendering of a negative number is a minus sign and the rendering of its magnitude. */
  lemma NegativeDecimalPieces(t: string, j: nat, ws: string, n: int, rest: string)
    requires n < 0 && j <= |t| && t[j..] == ws + IntToDecimal(n) + rest
    ensures t[j..] == ws + ("-" + (NatToDecimal(-n) + rest))
  {
    assert IntToDecimal(n) == "-" + NatToDecimal(-n);
  }

  /** White space, a minus sign and the decimal rendering of `m`: `\s*(-?\d+)` reads `-m`. */
  lemma SignedAtMinusDecimal(t: string, j: nat, ws: string, m: nat, rest: string, n: int)
    requires j <= |t| && t[j..] == ws + ("-" + (NatToDecimal(m) + rest)) && n == -(m as int)
    requires AllSpace(ws) && (rest == [] || !IsDigit(rest[0]))
    ensures SignedAt(t, j) == Some(n)
  {
    var k := MinusAt(t, j, ws, NatToDecimal(m) + rest);
    UnsignedDecimalAt(t, k + 1, m, rest);
    SignedAtNegative(t, j, k, n);
  }

  lemma SignedAtNaturalDecimal(t: string, j: nat, ws: string, n: int, rest: string)
    requires n >= 0 && j <= |t| && t[j..] == ws + IntToDecimal(n) + rest
    requires AllSpace(ws) && (rest == [] || !IsDigit(rest[0]))
    ensures SignedAt(t, j) == Some(n)
  {
    var ds := NatToDecimal(n);
    assert t[j..] == ws + (ds + rest) by {
      assert IntToDecimal(n) == ds;
    }
    assert IsDigit(ds[0]) && (ds + rest)[0] == ds[0];
    var k := DigitStartAt(t, j, ws, ds + rest);
    UnsignedDecimalAt(t, k, n, rest);
    SignedAtNatural(t, j, k, n);
  }

  /** The decimal rendering of `m`, read in place, is `m`. */
  lemma UnsignedDecimalAt(t: string, k: nat, m: nat, rest: string)
    requires k <= |t| && t[k..] == NatToDecimal(m) + rest && (rest == [] || !IsDigit(rest[0]))
    ensures UnsignedAt(t, k).Some? && UnsignedAt(t, k).value == m
  {
    UnsignedValueAt(t, k, NatToDecimal(m), rest);
  }

  /** A digit run read in place has the value of the digits written there. */
  lemma UnsignedValueAt(t: string, k: nat, ds: string, rest: string)
    requires k <= |t| && t[k..] == ds + rest
    requires |ds| > 0 && AllDigits(ds) && (rest == [] || !IsDigit(rest[0]))
    ensures k < |t| && t[k] == ds[0]
    ensures UnsignedAt(t, k).Some? && UnsignedAt(t, k).value == DecimalValue(ds)
  {
    assert t[k] == t[k..][0];
    DigitsAt(t, k, ds, rest);
    UnsignedAtIs(t, k, ds);
  }

  /** Text that starts with a minus sign. */
  lemma MinusFirst(t: string, k: nat, after: string)
    requires k <= |t| && t[k..] == "-" + after
    ensures k < |t| && t[k] == '-' && t[k + 1..] == after
  {
    assert t[k] == t[k..][0];
    assert t[k + 1..] == t[k..][1..];
    assert ("-" + after)[1..] == after;
  }

  /**
   * A label, white space, a decimal and any text not starting with a digit:
   * the first pattern yields the decimal's value.
   */
  lemma LabelRoundTrip(head: string, ws: string, n: int, rest: string)
    requires IsLabel(head) && AllSpace(ws) && (rest == [] || !IsDigit(rest[0]))
    ensures LabelPattern(head + ws + IntToDecimal(n) + rest) == Some(n)
  {
    var x := IntToDecimal(n);
    LabelThen(head, ws, x, rest);
    SignedAtDecimal(head + ws + x + rest, |head|, ws, n, rest);
  }

  /** A label followed by more text: the label ends where the text after it begins. */
  lemma LabelThen(head: string, ws: string, x: string, rest: string)
    requires IsLabel(head)
    ensures var t := head + ws + x + rest;
      |head| <= |t| && t[|head|..] == ws + x + rest
      && (|head| < |t| ==> LabelEnd(t) == Some(|head|))
  {
    var t := head + ws + x + rest;
    assert t == head + (ws + x + rest);
    if |head| < |t| {
      LabelEndOf(head, t);
    }
  }

  // The attribute-row pattern.

  /** A run of class `k` at the end, after text that does not end in that class. */
  lemma RunBackAfter(x: string, y: string, k: CharClass)
    requires forall i :: 0 <= i < |y| ==> InClass(y[i], k)
    requires x == [] || !InClass(x[|x| - 1], k)
    ensures RunBack(x + y, k) == |y| && (x + y)[..|x|] == x
  {
    var s := x + y;
    assert forall j :: |s| - |y| <= j < |s| ==> s[j] == y[j - |x|];
    if |x| > 0 {
      assert s[|s| - |y| - 1] == x[|x| - 1];
    }
    RunBackIs(s, k, |y|);
  }

  /** `c word <ws>`: the text before the word, for a word that does not end in white space. */
  lemma WordEnd(c: string, word: string, ws: string)
    requires AllSpace(ws) && |ws| > 0 && |word| > 0 && !IsSpace(word[|word| - 1])
    ensures BeforeWord(c + word + ws, word) == Some(c)
  {
    var e := c + word;
    assert e[|e| - 1] == word[|word| - 1];
    RunBackAfter(e, ws, Spaces);
    assert (e + ws)[..|e + ws| - |ws|] == e;
    assert e[|e| - |word|..] == word && e[..|e| - |word|] == c;
    assert (e + ws)[..|e + ws| - |ws| - |word|] == c;
  }

  /** `Current<ws>` at the end is not `---<ws>`. */
  lemma CurrentIsNotDashes(b: string, ws: string)
    requires AllSpace(ws) && |ws| > 0 && EndsWith(b, "Current")
    ensures BeforeWord(b + ws, "---").None?
  {
    assert b[|b| - 1] == "Current"[6];
    RunBackAfter(b, ws, Spaces);
    assert (b + ws)[..|b + ws| - |ws|] == b;
  }

  /** `x` followed by `Temperature`: what comes before it. */
  lemma TemperatureEnd(x: string)
    ensures var t := x + "Temperature";
      EndsWith(t, "Temperature") && t[..|t| - 11] == x
  {
  }

  /** `c---<ws>Temperature`: the text before the dashes. */
  lemma DashesEnd(c: string, ws2: string)
    requires AllSpace(ws2) && |ws2| > 0
    ensures BeforeDashes(c + "---" + ws2 + "Temperature") == Some(c)
  {
    TemperatureEnd(c + "---" + ws2);
    WordEnd(c, "---", ws2);
  }

  /** `c---<ws>Current<ws>Temperature`: the text before the dashes. */
  lemma DashesCurrentEnd(c: string, ws2: string, ws3: string)
    requires AllSpace(ws2) && |ws2| > 0 && AllSpace(ws3) && |ws3| > 0
    ensures BeforeDashes(c + "---" + ws2 + "Current" + ws3 + "Temperature") == Some(c)
  {
    var b := c + "---" + ws2;
    TemperatureEnd(b + "Current" + ws3);
    assert EndsWith(b + "Current", "Current");
    CurrentIsNotDashes(b + "Current", ws3);
    WordEnd(b, "Current", ws3);
    WordEnd(c, "---", ws2);
  }

  /** The signed number ending the text, in terms of its trailing digit run. */
  lemma SignedEndIs(d: string, k: nat, ds: string)
    requires k == RunBack(d, Digits) && k > 0 && d[|d| - k..] == ds
    ensures var v := DecimalValue(ds) as int;
      SignedEnd(d) == Some(if k < |d| && d[|d| - k - 1] == '-' then -v else v)
  {
  }

  /** The trailing digit run of the text, with no minus sign in front: its value. */
  lemma SignedEndPlain(d: string, k: nat, ds: string)
    requires k == RunBack(d, Digits) && k > 0 && d[|d| - k..] == ds
    requires k == |d| || d[|d| - k - 1] != '-'
    ensures SignedEnd(d) == Some(DecimalValue(ds) as int)
  {
    SignedEndIs(d, k, ds);
  }

  /** The trailing digit run of the text, after a minus sign: its negated value. */
  lemma SignedEndMinus(d: string, k: nat, ds: string)
    requires k == RunBack(d, Digits) && k > 0 && d[|d| - k..] == ds
    requires k < |d| && d[|d| - k - 1] == '-'
    ensures SignedEnd(d) == Some(-(DecimalValue(ds) as int))
  {
    SignedEndIs(d, k, ds);
  }

  /** Text ending in a digit, then white space: the white space is the trailing run, and the number ends the text before it. */
  lemma DigitsThenSpaces(d: string, ws1: string)
    requires AllSpace(ws1) && |ws1| > 0 && |d| > 0 && IsDigit(d[|d| - 1])
    ensures SignedBefore(d + ws1) == SignedEnd(d)
  {
    DigitIsNotSpace(d[|d| - 1]);
    RunBackAfter(d, ws1, Spaces);
    assert (d + ws1)[..|d + ws1| - |ws1|] == d;
  }

  /** Digits ending the text, after nothing or a character that is neither a digit nor a minus sign: their value. */
  lemma EndNatural(pre: string, ds: string)
    requires |ds| > 0 && AllDigits(ds)
    requires pre == [] || (!IsDigit(pre[|pre| - 1]) && pre[|pre| - 1] != '-')
    ensures SignedEnd(pre + ds) == Some(DecimalValue(ds) as int)
  {
    var d := pre + ds;
    RunBackAfter(pre, ds, Digits);
    assert d[|d| - |ds|..] == ds;
    if pre == [] {
      assert d == ds;
    } else {
      assert d[|d| - |ds| - 1] == pre[|pre| - 1];
    }
    SignedEndPlain(d, |ds|, ds);
  }

  /** A minus sign and digits ending the text: the negated value, whatever comes before. */
  lemma EndNegative(pre: string, ds: string)
    requires |ds| > 0 && AllDigits(ds)
    ensures SignedEnd(pre + "-" + ds) == Some(-(DecimalValue(ds) as int))
  {
    var d := pre + "-" + ds;
    RunBackAfter(pre + "-", ds, Digits);
    assert d[|d| - |ds|..] == ds;
    assert d[|d| - |ds| - 1] == '-';
    SignedEndMinus(d, |ds|, ds);
  }

  /**
   * What the row pattern reads from the text before the dashes: a decimal,
   * white space, and in front of the decimal nothing, or a character that is
   * neither a digit nor a minus sign.
   */
  lemma RowValueOf(pre: string, n: int, ws1: string)
    requires AllSpace(ws1) && |ws1| > 0
    requires pre == [] || (!IsDigit(pre[|pre| - 1]) && pre[|pre| - 1] != '-')
    ensures SignedBefore(pre + IntToDecimal(n) + ws1) == Some(n)
  {
    var d := pre + IntToDecimal(n);
    assert SignedEnd(d) == Some(n) && IsDigit(d[|d| - 1]) by {
      EndDecimal(pre, n);
    }
    DigitsThenSpaces(d, ws1);
  }

  /** A decimal ending the text, after nothing or a character that is neither a digit nor a minus sign: its value. */
  lemma EndDecimal(pre: string, n: int)
    requires pre == [] || (!IsDigit(pre[|pre| - 1]) && pre[|pre| - 1] != '-')
    ensures var d := pre + IntToDecimal(n);
      |d| > 0 && IsDigit(d[|d| - 1]) && SignedEnd(d) == Some(n)
  {
    var d := pre + IntToDecimal(n);
    if n < 0 {
      var ds := NatToDecimal(-n);
      assert d == pre + "-" + ds;
      assert d[|d| - 1] == ds[|ds| - 1];
      EndNegative(pre, ds);
    } else {
      var ds := NatToDecimal(n);
      assert d == pre + ds;
      assert d[|d| - 1] == ds[|ds| - 1];
      EndNatural(pre, ds);
    }
  }

  /** `---<ws>Temperature`, or `---<ws>Current<ws>Temperature` when the second white-space run is given. */
  function RowTail(ws2: string, ws3: Option<string>): string {
    match ws3
    case None => "---" + ws2 + "Temperature"
    case Some(w) => "---" + ws2 + "Current" + w + "Temperature"
  }

  /** A run of one or more white-space characters. */
  predicate IsGap(ws: string) {
    |ws| > 0 && AllSpace(ws)
  }

  /**
   * A decimal, white space and the row's end: the second pattern yields the
   * decimal's value when nothing, or a character that is neither a digit nor
   * a minus sign, comes before it.
   */
  lemma AttributeRowRoundTrip(pre: string, n: int, ws1: string, ws2: string, ws3: Option<string>)
    requires IsGap(ws1) && IsGap(ws2) && (ws3.Some? ==> IsGap(ws3.value))
    requires pre == [] || (!IsDigit(pre[|pre| - 1]) && pre[|pre| - 1] != '-')
    ensures RowPattern(pre + IntToDecimal(n) + ws1 + RowTail(ws2, ws3)) == Some(n)
  {
    TailDashes(pre + IntToDecimal(n) + ws1, ws2, ws3);
    RowValueOf(pre, n, ws1);
  }

  /** Any text followed by the row's end: the text before the dashes is that text. */
  lemma TailDashes(c: string, ws2: string, ws3: Option<string>)
    requires IsGap(ws2) && (ws3.Some? ==> IsGap(ws3.value))
    ensures BeforeDashes(c + RowTail(ws2, ws3)) == Some(c)
  {
    match ws3 {
      case None =>
        assert c + RowTail(ws2, ws3) == c + "---" + ws2 + "Temperature";
        DashesEnd(c, ws2);
      case Some(w) =>
        assert c + RowTail(ws2, ws3) == c + "---" + ws2 + "Current" + w + "Temperature";
        DashesCurrentEnd(c, ws2, w);
    }
  }

  // Whole `smartctl` lines.

  /** The ends of a decimal: a digit or a minus sign first, a digit last. */
  lemma DecimalEnds(n: int)
    ensures var x := IntToDecimal(n);
      |x| > 0 && (IsDigit(x[0]) || x[0] == '-') && !IsSpace(x[0]) && IsDigit(x[|x| - 1]) && !IsSpace(x[|x| - 1])
  {
    var ds := NatToDecimal(if n < 0 then -n else n);
    var x := IntToDecimal(n);
    assert x == (if n < 0 then "-" + ds else ds);
    assert x[|x| - 1] == ds[|ds| - 1];
    DigitIsNotSpace(ds[0]);
    DigitIsNotSpace(ds[|ds| - 1]);
  }

  /** A line framed by white space is read as its stripped core. */
  lemma FramedLine(lead: string, core: string, trail: string)
    requires AllSpace(lead) && AllSpace(trail) && |core| > 0 && !IsSpace(core[0]) && !IsSpace(core[|core| - 1])
    ensures LineTemp(lead + core + trail) == (if LabelPattern(core).Some? then LabelPattern(core) else RowPattern(core))
  {
    StripFrame(lead, core, trail);
  }

  /**
   * A label line, framed by any white space: the label, white space, a
   * decimal and text that starts with a non-digit and ends with a non-space.
   */
  lemma LabelLine(lead: string, head: string, ws: string, n: int, rest: string, trail: string)
    requires AllSpace(lead) && AllSpace(trail) && IsLabel(head) && AllSpace(ws)
    requires rest == [] || (!IsDigit(rest[0]) && !IsSpace(rest[|rest| - 1]))
    ensures LineTemp(lead + head + ws + IntToDecimal(n) + rest + trail) == Some(n)
  {
    var x := IntToDecimal(n);
    DecimalEnds(n);
    LabelRoundTrip(head, ws, n, rest);
    LabelStart(head);
    LabelCore(lead, head, ws, x, rest, trail);
  }

  /** A label starts with `T` or `C`, so not with white space. */
  lemma LabelStart(head: string)
    requires IsLabel(head)
    ensures |head| > 0 && (head[0] == 'T' || head[0] == 'C') && !IsSpace(head[0])
  {
    if head != "Temperature:" {
      assert head[0] == head[..7][0];
    }
  }

  /** The core of a framed label line: from the label to the last non-space character. */
  lemma LabelCore(lead: string, head: string, ws: string, x: string, rest: string, trail: string)
    requires AllSpace(lead) && AllSpace(trail) && |head| > 0 && !IsSpace(head[0]) && |x| > 0 && !IsSpace(x[|x| - 1])
    requires rest == [] || !IsSpace(rest[|rest| - 1])
    requires LabelPattern(head + ws + x + rest).Some?
    ensures LineTemp(lead + head + ws + x + rest + trail) == LabelPattern(head + ws + x + rest)
  {
    var core := head + ws + x + rest;
    RegroupLabel(lead, head, ws, x, rest, trail);
    CoreEnds(head, ws, x, rest);
    FramedLine(lead, core, trail);
  }

  /** Regrouping a label line around its core. */
  lemma RegroupLabel(lead: string, head: string, ws: string, x: string, rest: string, trail: string)
    ensures lead + head + ws + x + rest + trail == lead + (head + ws + x + rest) + trail
  {
  }

  /** The first and last characters of a label line's core. */
  lemma CoreEnds(head: string, ws: string, x: string, rest: string)
    requires |head| > 0 && |x| > 0
    ensures var core := head + ws + x + rest;
      core[0] == head[0] && core[|core| - 1] == (if rest == [] then x[|x| - 1] else rest[|rest| - 1])
  {
  }

  /** Text that starts with neither `T` nor `C` has no label. */
  lemma NoLabel(t: string)
    requires |t| > 0 && t[0] != 'T' && t[0] != 'C'
    ensures LabelPattern(t).None?
  {
    assert |t| >= 12 ==> t[..12][0] == t[0];
    assert |t| >= 7 ==> t[..7][0] == t[0];
  }

  /**
   * An attribute-row line, framed by any white space, whose text before the
   * decimal does not start with white space, `T` or `C`: the second pattern
   * decides.
   */
  lemma AttributeRowLine(lead: string, pre: string, n: int, ws1: string, ws2: string, ws3: Option<string>, trail: string)
    requires AllSpace(lead) && AllSpace(trail)
    requires IsGap(ws1) && IsGap(ws2) && (ws3.Some? ==> IsGap(ws3.value))
    requires pre == [] || (!IsDigit(pre[|pre| - 1]) && pre[|pre| - 1] != '-')
    requires pre == [] || (!IsSpace(pre[0]) && pre[0] != 'T' && pre[0] != 'C')
    ensures LineTemp(lead + pre + IntToDecimal(n) + ws1 + RowTail(ws2, ws3) + trail) == Some(n)
  {
    var x := IntToDecimal(n);
    var rt := RowTail(ws2, ws3);
    AttributeRowRoundTrip(pre, n, ws1, ws2, ws3);
    RowTailEnds(ws2, ws3);
    DecimalEnds(n);
    Regroup(lead, pre, x, ws1, rt, trail);
    RowCore(lead, pre, x, ws1 + rt, trail);
  }

  /** Regrouping a line around its tail. */
  lemma Regroup(lead: string, pre: string, x: string, ws1: string, rt: string, trail: string)
    requires |rt| > 0
    ensures lead + pre + x + ws1 + rt + trail == lead + pre + x + (ws1 + rt) + trail
    ensures pre + x + ws1 + rt == pre + x + (ws1 + rt)
    ensures (ws1 + rt)[|ws1 + rt| - 1] == rt[|rt| - 1]
  {
  }

  /** The row's end finishes with the `e` of `Temperature`. */
  lemma RowTailEnds(ws2: string, ws3: Option<string>)
    ensures var t := RowTail(ws2, ws3);
      |t| > 0 && t[|t| - 1] == 'e'
  {
  }

  /** The core of a framed row line: it starts with neither `T` nor `C`, so only the row pattern can match. */
  lemma RowCore(lead: string, pre: string, x: string, tail: string, trail: string)
    requires AllSpace(lead) && AllSpace(trail) && |x| > 0 && !IsSpace(x[0]) && (IsDigit(x[0]) || x[0] == '-')
    requires pre == [] || (!IsSpace(pre[0]) && pre[0] != 'T' && pre[0] != 'C')
    requires |tail| > 0 && tail[|tail| - 1] == 'e'
    ensures LineTemp(lead + pre + x + tail + trail) == RowPattern(pre + x + tail)
  {
    var core := pre + x + tail;
    assert core[0] == (if pre == [] then x[0] else pre[0]);
    assert core[|core| - 1] == tail[|tail| - 1];
    assert lead + pre + x + tail + trail == lead + core + trail;
    NoLabel(core);
    FramedLine(lead, core, trail);
  }

  // What the patterns accept: exactly the lines of their shape.

  /** The optional minus sign in front of the digits. */
  function Sign(minus: bool): string {
    if minus then "-" else ""
  }

  /** The value of a digit run with an optional minus sign in front. */
  function Signed(minus: bool, ds: string): int
    requires AllDigits(ds)
  {
    if minus then -(DecimalValue(ds) as int) else DecimalValue(ds) as int
  }

  /**
   * `t` has the first pattern's shape with group value `v`: a label, white
   * space, an optional minus, a digit run, and text that does not extend the run.
   */
  predicate LabelForm(t: string, head: string, ws: string, minus: bool, ds: string, rest: string, v: int) {
    && IsLabel(head) && AllSpace(ws) && |ds| > 0 && AllDigits(ds)
    && (rest == [] || !IsDigit(rest[0]))
    && t == head + ws + Sign(minus) + ds + rest
    && v == Signed(minus, ds)
  }

  /** The first pattern reads `v` from `t` exactly when `t` has its shape with value `v`. */
  lemma LabelPatternExactly(t: string, v: int)
    ensures LabelPattern(t) == Some(v) <==> exists head, ws, minus, ds, rest :: LabelForm(t, head, ws, minus, ds, rest, v)
  {
    if LabelPattern(t) == Some(v) {
      var head, ws, minus, ds, rest := LabelAccepted(t);
      assert LabelForm(t, head, ws, minus, ds, rest, v);
    }
    forall head, ws, minus, ds, rest | LabelForm(t, head, ws, minus, ds, rest, v)
      ensures LabelPattern(t) == Some(v)
    {
      LabelFormRead(t, head, ws, minus, ds, rest, v);
    }
  }

  /** A line the first pattern accepts has its shape. */
  lemma LabelAccepted(t: string) returns (head: string, ws: string, minus: bool, ds: string, rest: string)
    requires LabelPattern(t).Some?
    ensures LabelForm(t, head, ws, minus, ds, rest, LabelPattern(t).value)
  {
    var e := LabelEnd(t).value;
    head := t[..e];
    ws, minus, ds, rest := SignedShape(t, e);
  }

  /** What `\s*(-?\d+)` accepts at `j`: white space, an optional minus, a whole digit run, the rest. */
  lemma SignedShape(t: string, j: nat) returns (ws: string, minus: bool, ds: string, rest: string)
    requires j <= |t| && SignedAt(t, j).Some?
    ensures AllSpace(ws) && |ds| > 0 && AllDigits(ds) && (rest == [] || !IsDigit(rest[0]))
    ensures t == t[..j] + ws + Sign(minus) + ds + rest
    ensures SignedAt(t, j) == Some(Signed(minus, ds))
  {
    var k := j + RunFrom(t, j, Spaces);
    minus := k < |t| && t[k] == '-';
    var k2 := if minus then k + 1 else k;
    var n := RunFrom(t, k2, Digits);
    SpacesFrom(t, j, k);
    DigitsFrom(t, k2, k2 + n);
    ws, ds, rest := t[j..k], t[k2..k2 + n], t[k2 + n..];
    SignedPieces(t, j, k, minus, k2, k2 + n);
    SignedAtValue(t, j, k, minus, k2, n);
  }

  /** The white-space run `\s*` takes at `i`. */
  lemma SpacesFrom(t: string, i: nat, k: nat)
    requires i <= |t| && k == i + RunFrom(t, i, Spaces)
    ensures AllSpace(t[i..k])
  {
    var r := t[i..k];
    forall j | 0 <= j < |r| ensures IsSpace(r[j]) {
      assert InClass(t[i + j], Spaces);
    }
  }

  /** The digit run `\d+` takes at `i`, and what follows it. */
  lemma DigitsFrom(t: string, i: nat, m: nat)
    requires i <= |t| && m == i + RunFrom(t, i, Digits)
    ensures AllDigits(t[i..m]) && (t[m..] == [] || !IsDigit(t[m..][0]))
  {
    var r := t[i..m];
    forall j | 0 <= j < |r| ensures IsDigit(r[j]) {
      assert InClass(t[i + j], Digits);
    }
    assert t[m..] == [] || t[m..][0] == t[m];
  }

  /** A text cut at four places is the concatenation of its five pieces. */
  lemma Pieces(t: string, a: nat, b: nat, c: nat, d: nat)
    requires a <= b <= c <= d <= |t|
    ensures t == t[..a] + t[a..b] + t[b..c] + t[c..d] + t[d..]
  {
    assert t[..b] == t[..a] + t[a..b];
    assert t[..c] == t[..b] + t[b..c];
    assert t[..d] == t[..c] + t[c..d];
    assert t == t[..d] + t[d..];
  }

  /** A text cut around an optional minus sign is the concatenation of its pieces. */
  lemma SignedPieces(t: string, j: nat, k: nat, minus: bool, k2: nat, m: nat)
    requires j <= k <= k2 <= m <= |t|
    requires minus ==> k2 == k + 1 && t[k] == '-'
    requires !minus ==> k2 == k
    ensures t == t[..j] + t[j..k] + Sign(minus) + t[k2..m] + t[m..]
  {
    assert t[k..k2] == Sign(minus);
    Pieces(t, j, k, k2, m);
  }

  /** What `\s*(-?\d+)` reads, in terms of the white-space run, the sign and the digit run it measures. */
  lemma SignedAtValue(t: string, j: nat, k: nat, minus: bool, k2: nat, n: nat)
    requires j <= |t| && k == j + RunFrom(t, j, Spaces)
    requires minus == (k < |t| && t[k] == '-') && k2 == (if minus then k + 1 else k)
    requires k2 <= |t| && n == RunFrom(t, k2, Digits) && n > 0 && AllDigits(t[k2..k2 + n])
    ensures SignedAt(t, j) == Some(Signed(minus, t[k2..k2 + n]))
  {
    UnsignedAtIs(t, k2, t[k2..k2 + n]);
    if minus {
      SignedAtNegative(t, j, k, Signed(minus, t[k2..k2 + n]));
    } else {
      SignedAtNatural(t, j, k, Signed(minus, t[k2..k2 + n]));
    }
  }

  /** A line of the first pattern's shape is read as its value. */
  lemma LabelFormRead(t: string, head: string, ws: string, minus: bool, ds: string, rest: string, v: int)
    requires LabelForm(t, head, ws, minus, ds, rest, v)
    ensures LabelPattern(t) == Some(v)
  {
    HeadPieces(t, head, ws + Sign(minus) + ds + rest);
    LabelEndOf(head, t);
    SignedAtDigits(t, |head|, ws, minus, ds, rest);
  }

  /** A text that starts with `head` splits there into `head` and the rest. */
  lemma HeadPieces(t: string, head: string, tail: string)
    requires t == head + tail
    ensures |head| <= |t| && t[..|head|] == head && t[|head|..] == tail
  {
  }

  /** `\s*(-?\d+)` reads an optionally negated digit run written after white space. */
  lemma SignedAtDigits(t: string, j: nat, ws: string, minus: bool, ds: string, rest: string)
    requires j <= |t| && t[j..] == ws + Sign(minus) + ds + rest
    requires AllSpace(ws) && |ds| > 0 && AllDigits(ds) && (rest == [] || !IsDigit(rest[0]))
    ensures SignedAt(t, j) == Some(Signed(minus, ds))
  {
    if minus {
      assert t[j..] == ws + ("-" + (ds + rest));
      SignedAtMinusDigits(t, j, ws, ds, rest);
    } else {
      assert t[j..] == ws + (ds + rest);
      SignedAtPlainDigits(t, j, ws, ds, rest);
    }
  }

  /** `\s*(-?\d+)` reads a negated digit run written after white space. */
  lemma SignedAtMinusDigits(t: string, j: nat, ws: string, ds: string, rest: string)
    requires j <= |t| && t[j..] == ws + ("-" + (ds + rest))
    requires AllSpace(ws) && |ds| > 0 && AllDigits(ds) && (rest == [] || !IsDigit(rest[0]))
    ensures SignedAt(t, j) == Some(Signed(true, ds))
  {
    var k := MinusAt(t, j, ws, ds + rest);
    UnsignedValueAt(t, k + 1, ds, rest);
    SignedAtNegative(t, j, k, Signed(true, ds));
  }

  /** `\s*(-?\d+)` reads a digit run written after white space. */
  lemma SignedAtPlainDigits(t: string, j: nat, ws: string, ds: string, rest: string)
    requires j <= |t| && t[j..] == ws + (ds + rest)
    requires AllSpace(ws) && |ds| > 0 && AllDigits(ds) && (rest == [] || !IsDigit(rest[0]))
    ensures SignedAt(t, j) == Some(Signed(false, ds))
  {
    assert (ds + rest)[0] == ds[0];
    var k := DigitStartAt(t, j, ws, ds + rest);
    UnsignedValueAt(t, k, ds, rest);
    SignedAtNatural(t, j, k, Signed(false, ds));
  }

  /**
   * `t` has the second pattern's shape with group value `v`: text, an
   * optional minus, a digit run, white space and the row's end, where without
   * the minus the text before the digits ends in neither a digit nor a minus.
   */
  predicate RowForm(t: string, pre: string, minus: bool, ds: string, ws1: string, ws2: string, ws3: Option<string>, v: int) {
    && |ds| > 0 && AllDigits(ds) && IsGap(ws1) && IsGap(ws2) && (ws3.Some? ==> IsGap(ws3.value))
    && (!minus ==> pre == [] || (!IsDigit(pre[|pre| - 1]) && pre[|pre| - 1] != '-'))
    && t == pre + Sign(minus) + ds + ws1 + RowTail(ws2, ws3)
    && v == Signed(minus, ds)
  }

  /** The second pattern reads `v` from `t` exactly when `t` has its shape with value `v`. */
  lemma RowPatternExactly(t: string, v: int)
    ensures RowPattern(t) == Some(v) <==>
      exists pre, minus, ds, ws1, ws2, ws3 :: RowForm(t, pre, minus, ds, ws1, ws2, ws3, v)
  {
    if RowPattern(t) == Some(v) {
      var pre, minus, ds, ws1, ws2, ws3 := RowAccepted(t);
      assert RowForm(t, pre, minus, ds, ws1, ws2, ws3, v);
    }
    forall pre, minus, ds, ws1, ws2, ws3 | RowForm(t, pre, minus, ds, ws1, ws2, ws3, v)
      ensures RowPattern(t) == Some(v)
    {
      RowFormRead(t, pre, minus, ds, ws1, ws2, ws3, v);
    }
  }

  /** A line of the second pattern's shape is read as its value. */
  lemma RowFormRead(t: string, pre: string, minus: bool, ds: string, ws1: string, ws2: string, ws3: Option<string>, v: int)
    requires RowForm(t, pre, minus, ds, ws1, ws2, ws3, v)
    ensures RowPattern(t) == Some(v)
  {
    var d := pre + Sign(minus) + ds;
    TailDashes(d + ws1, ws2, ws3);
    assert d[|d| - 1] == ds[|ds| - 1];
    DigitsThenSpaces(d, ws1);
    SignedEndDigits(pre, minus, ds);
  }

  /** `-?\d+` ending the text reads an optionally negated digit run, when the run is whole and its sign is its own. */
  lemma SignedEndDigits(pre: string, minus: bool, ds: string)
    requires |ds| > 0 && AllDigits(ds)
    requires !minus ==> pre == [] || (!IsDigit(pre[|pre| - 1]) && pre[|pre| - 1] != '-')
    ensures SignedEnd(pre + Sign(minus) + ds) == Some(Signed(minus, ds))
  {
    if minus {
      EndNegative(pre, ds);
    } else {
      assert pre + Sign(minus) + ds == pre + ds;
      EndNatural(pre, ds);
    }
  }

  /** A line the second pattern accepts has its shape. */
  lemma RowAccepted(t: string) returns (pre: string, minus: bool, ds: string, ws1: string, ws2: string, ws3: Option<string>)
    requires RowPattern(t).Some?
    ensures RowForm(t, pre, minus, ds, ws1, ws2, ws3, RowPattern(t).value)
  {
    var c := BeforeDashes(t).value;
    ws2, ws3 := DashesShape(t);
    pre, minus, ds, ws1 := SignedBeforeShape(c);
    assert t == pre + Sign(minus) + ds + ws1 + RowTail(ws2, ws3);
  }

  /** What `(-?\d+)\s+` accepts at the end: text, an optional minus, a whole digit run, white space. */
  lemma SignedBeforeShape(c: string) returns (pre: string, minus: bool, ds: string, ws1: string)
    requires SignedBefore(c).Some?
    ensures |ds| > 0 && AllDigits(ds) && IsGap(ws1)
    ensures !minus ==> pre == [] || (!IsDigit(pre[|pre| - 1]) && pre[|pre| - 1] != '-')
    ensures c == pre + Sign(minus) + ds + ws1
    ensures SignedBefore(c) == Some(Signed(minus, ds))
  {
    var w := RunBack(c, Spaces);
    SpacesBack(c);
    ws1 := c[|c| - w..];
    var d := c[..|c| - w];
    assert c == d + ws1;
    pre, minus, ds := SignedEndShape(d);
  }

  /** What `-?\d+` accepts at the end: text, an optional minus, a whole digit run. */
  lemma SignedEndShape(d: string) returns (pre: string, minus: bool, ds: string)
    requires SignedEnd(d).Some?
    ensures |ds| > 0 && AllDigits(ds)
    ensures !minus ==> pre == [] || (!IsDigit(pre[|pre| - 1]) && pre[|pre| - 1] != '-')
    ensures d == pre + Sign(minus) + ds
    ensures SignedEnd(d) == Some(Signed(minus, ds))
  {
    var n := RunBack(d, Digits);
    DigitsBack(d);
    ds := d[|d| - n..];
    SignedEndIs(d, n, ds);
    minus := n < |d| && d[|d| - n - 1] == '-';
    pre := if minus then d[..|d| - n - 1] else d[..|d| - n];
    assert d == pre + Sign(minus) + ds;
    assert !minus && pre != [] ==> pre[|pre| - 1] == d[|d| - n - 1];
  }

  /** The trailing white-space run of the text. */
  lemma SpacesBack(c: string)
    ensures AllSpace(c[|c| - RunBack(c, Spaces)..])
  {
    var w := RunBack(c, Spaces);
    var r := c[|c| - w..];
    forall j | 0 <= j < |r| ensures IsSpace(r[j]) {
      assert InClass(c[|c| - w + j], Spaces);
    }
  }

  /** The trailing digit run of the text, and what stands before it. */
  lemma DigitsBack(d: string)
    ensures var n := RunBack(d, Digits);
      AllDigits(d[|d| - n..]) && (n < |d| ==> !IsDigit(d[|d| - n - 1]))
  {
    var n := RunBack(d, Digits);
    var r := d[|d| - n..];
    forall j | 0 <= j < |r| ensures IsDigit(r[j]) {
      assert InClass(d[|d| - n + j], Digits);
    }
  }

  /** The text before the dashes, followed by the row's end. */
  lemma DashesShape(t: string) returns (ws2: string, ws3: Option<string>)
    requires BeforeDashes(t).Some?
    ensures IsGap(ws2) && (ws3.Some? ==> IsGap(ws3.value))
    ensures t == BeforeDashes(t).value + RowTail(ws2, ws3)
  {
    var a := t[..|t| - 11];
    assert t == a + "Temperature";
    if BeforeWord(a, "---").Some? {
      var c := BeforeWord(a, "---").value;
      assert BeforeDashes(t) == Some(c);
      ws2 := WordShape(a, "---");
      ws3 := None;
      TailJoin(c, ws2, None, a, t);
    } else {
      var b := BeforeWord(a, "Current").value;
      var c := BeforeWord(b, "---").value;
      assert BeforeDashes(t) == Some(c);
      var w3 := WordShape(a, "Current");
      ws2 := WordShape(b, "---");
      ws3 := Some(w3);
      assert a == c + "---" + ws2 + "Current" + w3;
      TailJoin(c, ws2, ws3, a, t);
    }
  }

  /** The pieces of a row's end put back together. */
  lemma TailJoin(c: string, ws2: string, ws3: Option<string>, a: string, t: string)
    requires ws3.None? ==> a == c + "---" + ws2
    requires ws3.Some? ==> a == c + "---" + ws2 + "Current" + ws3.value
    requires t == a + "Temperature"
    ensures t == c + RowTail(ws2, ws3)
  {
  }

  /** Text `BeforeWord` splits: what it returns, the word, and a white-space run. */
  lemma WordShape(x: string, word: string) returns (ws: string)
    requires BeforeWord(x, word).Some?
    ensures IsGap(ws) && x == BeforeWord(x, word).value + word + ws
  {
    var w := RunBack(x, Spaces);
    ws := x[|x| - w..];
    var y := x[..|x| - w];
    assert IsGap(ws) by {
      forall j | 0 <= j < w ensures IsSpace(ws[j]) {
        assert InClass(x[|x| - w + j], Spaces);
      }
    }
    assert y == y[..|y| - |word|] + y[|y| - |word|..];
    assert x == y + ws;
  }

  // One line and the line loop.

  /**
   * A line reads `v` exactly when its stripped text has the label shape with
   * value `v`, or has no label match and has the attribute-row shape with `v`.
   */
  lemma LineTempExactly(line: string, v: int)
    ensures var t := Strip(line);
      LineTemp(line) == Some(v) <==>
        || (exists head, ws, minus, ds, rest :: LabelForm(t, head, ws, minus, ds, rest, v))
        || (LabelPattern(t).None? && exists pre, minus, ds, ws1, ws2, ws3 :: RowForm(t, pre, minus, ds, ws1, ws2, ws3, v))
  {
    LabelPatternExactly(Strip(line), v);
    RowPatternExactly(Strip(line), v);
  }

  /** The filtered lines give no value exactly when no line reads one, and otherwise the first line's that does. */
  lemma ScanTemperatureFirst(lines: seq<string>)
    ensures ScanTemperature(lines).None? <==> forall i :: 0 <= i < |lines| ==> LineTemp(lines[i]).None?
    ensures ScanTemperature(lines).Some? ==>
      exists i :: FirstHit(lines, LineTemp, i) && LineTemp(lines[i]) == ScanTemperature(lines)
  {
  }

  // The device.

  /**
   * A `/dev/sd*` path passes the SATA name check, also with one newline
   * after it, but not with two or with a trailing space.
   */
  lemma SataNameForms(p: string)
    requires IsSdPath(p)
    ensures IsSataName(p) && IsSataName(p + "\n")
    ensures !IsSataName(p + "\n\n") && !IsSataName(p + " ")
  {
    assert (p + "\n")[..|p|] == p;
    assert (p + "\n\n")[..|p| + 1] == p + "\n";
    assert (p + "\n\n")[|p|] == '\n';
    assert (p + " ")[|p|] == ' ';
  }

  /** An NVMe path is never a SATA name. */
  lemma NvmeIsNotSata(p: string)
    requires IsNvmePath(p)
    ensures !IsSataName(p)
  {
    assert p[5] == p[..9][5] == 'n';
    assert p[5] == p[..7][5] == p[..|p| - 1][..7][5];
  }

  /** NVMe drives are never asked about standby: no `hdparm` command, and never in standby. */
  lemma NvmeNeverAsked(p: string, shell: Oracle)
    requires IsNvmePath(p)
    ensures IsStandby(p, shell) == (false, [])
    ensures DriveTemp(p, DefaultFallback, shell).1 == [SmartctlCommand(p)]
  {
    NvmeIsNotSata(p);
  }

  /** Reading one drive never sends the `fdisk` command. */
  lemma DriveTempNeverLists(p: string, fallback: int, shell: Oracle)
    ensures FdiskCommand !in DriveTemp(p, fallback, shell).1
  {
    assert HdparmCommand(p)[0] == 'h';
    assert SmartctlCommand(p)[0] == 's';
  }

  /** No polling command is the `fdisk` command. */
  lemma {:induction false} PollNeverLists(paths: seq<string>, fallback: int, shell: Oracle)
    ensures FdiskCommand !in PollDrives(paths, fallback, shell).1
    decreases |paths|
  {
    if |paths| > 0 {
      DriveTempNeverLists(paths[0], fallback, shell);
      PollNeverLists(paths[1..], fallback, shell);
    }
  }

  /**
   * A second `get_temp` after a successful one lists no drives: it polls the
   * cached list again and, the shell answering alike, returns the same reading.
   */
  lemma GetTempTwice(d: SmartDevice, shell: Oracle)
    ensures var s1 := GetTemp(d, shell);
      s1.result.Success? ==>
        var s2 := GetTemp(s1.state, shell);
        && s2 == Step(s1.state, PollDrives(s1.state.drives.value, DefaultFallback, shell).1, s1.result)
        && FdiskCommand !in s2.sent
  {
    var s1 := GetTemp(d, shell);
    if s1.result.Success? {
      GetTempReadsList(d, shell);
      GetTempCached(s1.state, shell);
      PollNeverLists(s1.state.drives.value, DefaultFallback, shell);
    }
  }

  /** A successful reading is the largest of the drives now cached. */
  lemma GetTempReadsList(d: SmartDevice, shell: Oracle)
    ensures var s := GetTemp(d, shell);
      s.result.Success? ==>
        && s.state.drives.Some?
        && var polled := PollDrives(s.state.drives.value, DefaultFallback, shell).0;
          |polled| > 0 && s.result.value == Max(polled)
  {
  }

  /** With a non-empty cached list, `get_temp` polls exactly that list and nothing else. */
  lemma GetTempCached(d: SmartDevice, shell: Oracle)
    requires !NeedsList(d)
    ensures var polled := PollDrives(d.drives.value, DefaultFallback, shell);
      GetTemp(d, shell) == Step(d.(temp := Some(Max(polled.0))), polled.1, Success(Max(polled.0)))
  {
  }

  /** A drive in standby reads as the fallback, so the reported temperature is never below it. */
  lemma StandbyFloor(d: SmartDevice, shell: Oracle, p: string)
    ensures var s := GetTemp(d, shell);
      s.result.Success? && p in s.state.drives.value && IsStandby(p, shell).0 ==> s.result.value >= DefaultFallback
  {
  }

  /**
   * An NVMe drive whose filtered `smartctl` output starts with a
   * `Temperature:` line reads as that line's value, after one command.
   */
  lemma NvmeReading(p: string, fallback: int, shell: Oracle, ws: string, n: int, rest: string, more: seq<string>)
    requires IsNvmePath(p) && AllSpace(ws) && (rest == [] || (!IsDigit(rest[0]) && !IsSpace(rest[|rest| - 1])))
    requires shell(SmartctlCommand(p)).Output?
    requires shell(SmartctlCommand(p)).lines == ["Temperature:" + ws + IntToDecimal(n) + rest] + more
    ensures DriveTemp(p, fallback, shell) == (n, [SmartctlCommand(p)])
  {
    var line := "Temperature:" + ws + IntToDecimal(n) + rest;
    assert LineTemp(line) == Some(n) by {
      LabelLine([], "Temperature:", ws, n, rest, []);
      RegroupLabel([], "Temperature:", ws, IntToDecimal(n), rest, []);
      Unframed(line);
    }
    NvmeFirstLine(p, fallback, shell, n);
  }

  /** Empty framing leaves a line as it is. */
  lemma Unframed(core: string)
    ensures [] + core + [] == core
  {
  }

  /** An NVMe drive whose first filtered line yields a value reads as that value. */
  lemma NvmeFirstLine(p: string, fallback: int, shell: Oracle, n: int)
    requires IsNvmePath(p) && shell(SmartctlCommand(p)).Output?
    requires |shell(SmartctlCommand(p)).lines| > 0 && LineTemp(shell(SmartctlCommand(p)).lines[0]) == Some(n)
    ensures DriveTemp(p, fallback, shell) == (n, [SmartctlCommand(p)])
  {
    assert FirstHit(shell(SmartctlCommand(p)).lines, LineTemp, 0);
    NvmeNeverAsked(p, shell);
  }

  /**
   * A SATA drive that `hdparm` reports in standby and an NVMe drive whose
   * filtered `smartctl` output is `Temperature: 42 Celsius` (as `/dev/sda`
   * and `/dev/nvme0n1` are, by `ExamplePaths`): the sleeping drive counts
   * as the 30-degree fallback and the reading is 42.
   */
  lemma StandbyAndNvmeExample(sata: string, nvme: string, shell: Oracle)
    requires IsSdPath(sata) && IsNvmePath(nvme)
    requires shell(HdparmCommand(sata)).Output? && Contains(Lower(shell(HdparmCommand(sata)).stdout), "standby")
    requires shell(SmartctlCommand(nvme)).Output? && shell(SmartctlCommand(nvme)).lines == ["Temperature: 42 Celsius"]
    ensures var s := GetTemp(NewSmart(Some([sata, nvme])), shell);
      && s.result == Success(42)
      && s.sent == [HdparmCommand(sata), SmartctlCommand(nvme)]
      && s.state.temp == Some(42)
  {
    SataAsleep(sata, shell);
    NvmeExampleReads(nvme, shell);
    var ca, cb := [HdparmCommand(sata)], [SmartctlCommand(nvme)];
    GetTempOfTwo(sata, nvme, shell, 30, 42, ca, cb);
  }

  /** The paths of the example above have the SATA and the NVMe shape. */
  lemma ExamplePaths()
    ensures IsSdPath("/dev/sda") && IsNvmePath("/dev/nvme0n1")
  {
    assert NvmeSplitAt("/dev/nvme0n1", 10);
  }

  /** A fixed list of two drives: the hotter reading, after both drives' commands in order. */
  lemma GetTempOfTwo(a: string, b: string, shell: Oracle, ta: int, tb: int, ca: seq<string>, cb: seq<string>)
    requires DriveTemp(a, DefaultFallback, shell) == (ta, ca) && DriveTemp(b, DefaultFallback, shell) == (tb, cb)
    ensures var s := GetTemp(NewSmart(Some([a, b])), shell);
      var hottest := if ta < tb then tb else ta;
      s.result == Success(hottest) && s.sent == ca + cb && s.state.temp == Some(hottest)
  {
    PollTwo(a, b, shell, ta, tb, ca, cb);
    GetTempCached(NewSmart(Some([a, b])), shell);
    MaxOfPair(ta, tb);
  }

  /** A SATA drive in standby reads as the default fallback after one `hdparm` command. */
  lemma SataAsleep(p: string, shell: Oracle)
    requires IsSdPath(p)
    requires shell(HdparmCommand(p)).Output? && Contains(Lower(shell(HdparmCommand(p)).stdout), "standby")
    ensures DriveTemp(p, DefaultFallback, shell) == (30, [HdparmCommand(p)])
  {
  }

  /** An NVMe drive with the single line `Temperature: 42 Celsius` reads 42 after one `smartctl` command. */
  lemma NvmeExampleReads(p: string, shell: Oracle)
    requires IsNvmePath(p)
    requires shell(SmartctlCommand(p)).Output? && shell(SmartctlCommand(p)).lines == ["Temperature: 42 Celsius"]
    ensures DriveTemp(p, DefaultFallback, shell) == (42, [SmartctlCommand(p)])
  {
    assert IntToDecimal(42) == "42" by {
      assert NatToDecimal(4) == "4";
    }
    assert "Temperature: 42 Celsius" == "Temperature:" + " " + IntToDecimal(42) + " Celsius";
    assert ["Temperature: 42 Celsius"] == ["Temperature: 42 Celsius"] + [];
    NvmeReading(p, DefaultFallback, shell, " ", 42, " Celsius", []);
  }

  /** Polling two drives: both readings in order, then both drives' commands in order. */
  lemma PollTwo(a: string, b: string, shell: Oracle, ta: int, tb: int, ca: seq<string>, cb: seq<string>)
    requires DriveTemp(a, DefaultFallback, shell) == (ta, ca) && DriveTemp(b, DefaultFallback, shell) == (tb, cb)
    ensures PollDrives([a, b], DefaultFallback, shell) == ([ta, tb], ca + cb)
  {
    PollOne(b, shell, tb, cb);
    PollCons(a, [b], shell);
    PairJoin(a, b);
    PairJoin(ta, tb);
  }

  /** Polling one drive: its reading and its commands. */
  lemma PollOne(b: string, shell: Oracle, tb: int, cb: seq<string>)
    requires DriveTemp(b, DefaultFallback, shell) == (tb, cb)
    ensures PollDrives([b], DefaultFallback, shell) == ([tb], cb)
  {
    PollCons(b, [], shell);
    NothingAfter([b]);
    NothingAfter([tb]);
    NothingAfter(cb);
  }

  /** Polling one more drive first: its reading and its commands come first. */
  lemma PollCons(a: string, rest: seq<string>, shell: Oracle)
    ensures var here, later := DriveTemp(a, DefaultFallback, shell), PollDrives(rest, DefaultFallback, shell);
      PollDrives([a] + rest, DefaultFallback, shell) == ([here.0] + later.0, here.1 + later.1)
  {
    assert ([a] + rest)[1..] == rest;
  }
}

=== FILE: supermicro.dfy ===
/**
 * The Supermicro management-controller device (`X9`, `X10`, `X11`, `Gpu`):
 * its cached fan mode, speed, temperature and FRU map, and the `ipmitool`
 * commands each operation issues. Every operation takes the cached state and
 * the controller oracle and returns the new state, the commands sent, and the
 * result. The device's base class is assumed to start the cached speed and
 * temperature at `None`.
 */
module Supermicro {
  import opened Wrappers
  import opened Text
  import opened Exec
  import opened Sdr
  import opened Fru

  /** `X9.FanMode`, an `IntEnum`. */
  datatype FanMode = Standard | Full | Optimal | HeavyIo {
    function Value(): nat {
      match this
      case Standard => 0
      case Full => 1
      case Optimal => 2
      case HeavyIo => 4
    }
  }

  /** `FanMode(v)`: the mode whose value is `v`; any other value raises ValueError. */
  function ModeOf(v: int): (m: Option<FanMode>)
    ensures m.Some? ==> m.value.Value() == v
    ensures m.None? ==> forall f: FanMode :: f.Value() != v
  {
    if v == 0 then Some(Standard)
    else if v == 1 then Some(Full)
    else if v == 2 then Some(Optimal)
    else if v == 4 then Some(HeavyIo)
    else None
  }

  /** The class the device was built as; `X11` differs from `X10` only in its transport. */
  datatype Generation = X9 | X10 | X11 | Gpu

  /** A device and what it has cached. */
  datatype Bmc = Bmc(
    generation: Generation,
    fanMode: Option<FanMode>,
    speed: Option<int>,
    temp: Option<int>,
    fru: Option<map<string, string>>,
    speedZones: Option<seq<string>>)

  /** The `speed_zones` constructor default: two fixed zones on `X9` and `Gpu`, none on `X10` and `X11`. */
  function DefaultZones(generation: Generation): Option<seq<string>> {
    match generation
    case X9 => Some(["0x10", "0x11"])
    case Gpu => Some(["0x10", "0x11"])
    case X10 => None
    case X11 => None
  }

  /** A freshly constructed device: nothing cached yet. */
  function NewBmc(generation: Generation, speedZones: Option<seq<string>>): (b: Bmc)
    ensures b.fanMode.None? && b.speed.None? && b.temp.None? && b.fru.None?
    ensures b.generation == generation && b.speedZones == speedZones
  {
    Bmc(generation, None, None, None, None, speedZones)
  }

  // The command texts.

  const SdrCommand: string := "-c sdr"
  const FanModeQuery: string := "raw 0x30 0x45 0"
  const FruCommand: string := "fru"

  function FanModeCommand(mode: FanMode): string {
    "raw 0x30 0x45 0x01 " + NatToDecimal(mode.Value())
  }

  /** The two raw speed dialects: `X9` addresses a zone by its own token, `X10` by `0x` and a zone index. */
  datatype Dialect = X9Raw | X10Raw

  /** The fixed text in front of the zone token. */
  function ZonePrefix(dialect: Dialect): string {
    match dialect
    case X9Raw => "raw 0x30 0x91 0x5A 0x03 "
    case X10Raw => "raw 0x30 0x70 0x66 0x01 0x"
  }

  function ZoneCommand(dialect: Dialect, zone: string, pwm: string): string {
    ZonePrefix(dialect) + zone + " " + pwm
  }

  /** One zone command per zone, in zone order, all with the same duty value. */
  function ZoneCommands(dialect: Dialect, zones: seq<string>, pwm: string): (cmds: seq<string>)
    ensures |cmds| == |zones|
    ensures forall i :: 0 <= i < |zones| ==> cmds[i] == ZoneCommand(dialect, zones[i], pwm)
  {
    seq(|zones|, i requires 0 <= i < |zones| => ZoneCommand(dialect, zones[i], pwm))
  }

  // Sensing.

  /** `X9.get_temp(core)` (also `X10` and `X11`): one `-c sdr` dump reduced over the CPU sensors. */
  function GetTemp(b: Bmc, core: Option<int>, ipmi: Oracle): (s: Step<Bmc, int>)
    ensures s.sent == [SdrCommand]
    ensures ipmi(SdrCommand).Failed? ==> s.result.Failure?
    ensures s.result.Success? ==> s.state == b.(temp := Some(s.result.value))
    ensures s.result.Failure? ==> s.state == b
    ensures ipmi(SdrCommand).Output? && core.None? ==>
      var lines := ipmi(SdrCommand).lines;
      && (s.result.Success? <==> !AnyMalformed(CpuSensors, lines) && exists v :: IsReading(CpuSensors, lines, v))
      && (s.result.Success? ==> IsReading(CpuSensors, lines, s.result.value))
      && (s.result.Success? ==> forall v :: IsReading(CpuSensors, lines, v) ==> v <= s.result.value)
    ensures ipmi(SdrCommand).Output? && AnyMalformed(CpuSensors, ipmi(SdrCommand).lines) ==> s.result.Failure?
    ensures ipmi(SdrCommand).Output? && core.Some? && !AnyMalformed(CpuSensors, ipmi(SdrCommand).lines) ==>
      var temps := Table(CpuSensors, ipmi(SdrCommand).lines);
      && (s.result.Success? <==> -|temps| <= core.value < |temps|)
      && (0 <= core.value < |temps| ==> s.result == Success(temps[core.value]))
      && (-|temps| <= core.value < 0 ==> s.result == Success(temps[|temps| + core.value]))
  {
    match ipmi(SdrCommand)
    case Failed => Step(b, [SdrCommand], Failure(Transport(SdrCommand)))
    case Output(_, lines) =>
      CpuTempIsMaximum(lines);
      var r := CpuTemp(lines, core);
      Step(if r.Success? then b.(temp := Some(r.value)) else b, [SdrCommand], r)
  }

  /** `Gpu.get_temp()`: one `-c sdr` dump reduced by maximum over the GPU sensors. */
  function GpuGetTemp(b: Bmc, ipmi: Oracle): (s: Step<Bmc, int>)
    ensures s.sent == [SdrCommand]
    ensures ipmi(SdrCommand).Failed? ==> s.result.Failure?
    ensures s.result.Success? ==> s.state == b.(temp := Some(s.result.value))
    ensures s.result.Failure? ==> s.state == b
    ensures ipmi(SdrCommand).Output? ==>
      var lines := ipmi(SdrCommand).lines;
      && (s.result.Success? <==> !AnyMalformed(GpuSensors, lines) && |Table(GpuSensors, lines)| > 0)
      && (s.result.Success? ==> IsReading(GpuSensors, lines, s.result.value))
      && (s.result.Success? ==> forall v :: IsReading(GpuSensors, lines, v) ==> v <= s.result.value)
  {
    match ipmi(SdrCommand)
    case Failed => Step(b, [SdrCommand], Failure(Transport(SdrCommand)))
    case Output(_, lines) =>
      var r := GpuTemp(lines);
      Step(if r.Success? then b.(temp := Some(r.value)) else b, [SdrCommand], r)
  }

  // The fan-mode state machine.

  /** `get_fan_mode()`: reads the mode, caches it and returns it; a reply that is not a mode value raises. */
  function GetFanMode(b: Bmc, ipmi: Oracle): (s: Step<Bmc, FanMode>)
    ensures s.sent == [FanModeQuery]
    ensures s.result.Success? ==> s.state == b.(fanMode := Some(s.result.value))
    ensures s.result.Failure? ==> s.state == b
    ensures s.result.Success? <==>
      ipmi(FanModeQuery).Output? && ParseInt(ipmi(FanModeQuery).stdout).Some?
      && ModeOf(ParseInt(ipmi(FanModeQuery).stdout).value).Some?
    ensures s.result.Success? ==> ParseInt(ipmi(FanModeQuery).stdout) == Some(s.result.value.Value())
  {
    match ipmi(FanModeQuery)
    case Failed => Step(b, [FanModeQuery], Failure(Transport(FanModeQuery)))
    case Output(out, _) =>
      match ParseInt(out)
      case None => Step(b, [FanModeQuery], Failure(BadNumber(out)))
      case Some(v) =>
        match ModeOf(v)
        case None => Step(b, [FanModeQuery], Failure(BadFanMode(v)))
        case Some(m) => Step(b.(fanMode := Some(m)), [FanModeQuery], Success(m))
  }

  /**
   * `set_fan_mode(mode)`: sends the mode command only when the cached mode
   * differs from `mode`, and caches `mode` only once the command returned.
   */
  function SetFanMode(b: Bmc, mode: FanMode, ipmi: Oracle): (s: Step<Bmc, ()>)
    ensures b.fanMode == Some(mode) ==> s.sent == [] && s.state == b && s.result.Success?
    ensures b.fanMode != Some(mode) ==> s.sent == [FanModeCommand(mode)]
    ensures s.result.Success? <==> b.fanMode == Some(mode) || ipmi(FanModeCommand(mode)).Output?
    ensures s.result.Success? ==> s.state == b.(fanMode := Some(mode))
    ensures s.result.Failure? ==> s.state == b
  {
    if b.fanMode == Some(mode) then
      Step(b, [], Success(()))
    else
      var cmd := FanModeCommand(mode);
      match ipmi(cmd)
      case Failed => Step(b, [cmd], Failure(Transport(cmd)))
      case Output(_, _) => Step(b.(fanMode := Some(mode)), [cmd], Success(()))
  }

  /** `close()`: back to STANDARD through `set_fan_mode`, so nothing is sent when STANDARD is already cached. */
  function Close(b: Bmc, ipmi: Oracle): (s: Step<Bmc, ()>)
    ensures s.sent == (if b.fanMode == Some(Standard) then [] else [FanModeCommand(Standard)])
    ensures s.result.Success? <==> b.fanMode == Some(Standard) || ipmi(FanModeCommand(Standard)).Output?
    ensures s.result.Success? ==> s.state == b.(fanMode := Some(Standard))
    ensures s.result.Failure? ==> s.state == b
  {
    SetFanMode(b, Standard, ipmi)
  }

  // Speed actuation.

  /**
   * The duty value of `int(speed / (100 / 255))`, taken over the integers:
   * `speed * 255 / 100` truncated toward zero.
   */
  function Pwm(speed: int): (p: int)
    ensures speed >= 0 ==> 0 <= p && p * 100 <= speed * 255 < p * 100 + 100
    ensures speed < 0 ==> p <= 0 && -p * 100 <= -speed * 255 < -p * 100 + 100
  {
    if speed >= 0 then speed * 255 / 100 else -((-speed) * 255 / 100)
  }

  /** `hex(...)` of the duty value, as it appears in the zone commands. */
  function PwmText(speed: int): string {
    Hex(Pwm(speed))
  }

  /** Zone `k` is the first zone whose command failed. */
  predicate FailedAt(dialect: Dialect, zones: seq<string>, pwm: string, ipmi: Oracle, k: int) {
    && 0 <= k < |zones|
    && ipmi(ZoneCommand(dialect, zones[k], pwm)).Failed?
    && forall i :: 0 <= i < k ==> ipmi(ZoneCommand(dialect, zones[i], pwm)).Output?
  }

  /**
   * The zone loop: one command per zone, in order; the first command that
   * fails raises and ends the loop.
   */
  function SendZones(dialect: Dialect, zones: seq<string>, pwm: string, ipmi: Oracle): (r: (seq<string>, Result<(), Error>))
    ensures r.1.Success? <==> forall i :: 0 <= i < |zones| ==> ipmi(ZoneCommand(dialect, zones[i], pwm)).Output?
    ensures r.1.Success? ==> r.0 == ZoneCommands(dialect, zones, pwm)
    ensures r.1.Failure? ==> exists k :: FailedAt(dialect, zones, pwm, ipmi, k) && r.0 == ZoneCommands(dialect, zones[..k + 1], pwm)
    decreases |zones|
  {
    if |zones| == 0 then
      ([], Success(()))
    else
      var cmd := ZoneCommand(dialect, zones[0], pwm);
      if ipmi(cmd).Failed? then
        assert ZoneCommands(dialect, zones[..1], pwm) == [cmd];
        assert FailedAt(dialect, zones, pwm, ipmi, 0);
        ([cmd], Failure(Transport(cmd)))
      else
        var rest := SendZones(dialect, zones[1..], pwm, ipmi);
        ZoneCommandsCons(dialect, zones, pwm);
        if rest.1.Failure? then
          SendZonesFailedLater(dialect, zones, pwm, ipmi, rest.0);
          ([cmd] + rest.0, rest.1)
        else
          assert forall i :: 1 <= i < |zones| ==> zones[1..][i - 1] == zones[i];
          ([cmd] + rest.0, rest.1)
  }

  /** The commands for a list of zones: the first zone's, then the rest's. */
  lemma ZoneCommandsCons(dialect: Dialect, zones: seq<string>, pwm: string)
    requires |zones| > 0
    ensures ZoneCommands(dialect, zones, pwm) == [ZoneCommand(dialect, zones[0], pwm)] + ZoneCommands(dialect, zones[1..], pwm)
  {
  }

  /** A failure in the rest of the zones, after a first zone that succeeded. */
  lemma SendZonesFailedLater(dialect: Dialect, zones: seq<string>, pwm: string, ipmi: Oracle, sent: seq<string>)
    requires |zones| > 0 && ipmi(ZoneCommand(dialect, zones[0], pwm)).Output?
    requires exists k :: FailedAt(dialect, zones[1..], pwm, ipmi, k) && sent == ZoneCommands(dialect, zones[1..][..k + 1], pwm)
    ensures exists k :: (FailedAt(dialect, zones, pwm, ipmi, k)
      && [ZoneCommand(dialect, zones[0], pwm)] + sent == ZoneCommands(dialect, zones[..k + 1], pwm))
  {
    var k :| FailedAt(dialect, zones[1..], pwm, ipmi, k) && sent == ZoneCommands(dialect, zones[1..][..k + 1], pwm);
    assert zones[1..][..k + 1] == zones[..k + 2][1..];
    assert FailedAt(dialect, zones, pwm, ipmi, k + 1) by {
      assert forall i :: 1 <= i < k + 1 ==> zones[1..][i - 1] == zones[i];
    }
    ZoneCommandsCons(dialect, zones[..k + 2], pwm);
  }

  /**
   * `X9.set_speed(speed)` (also `Gpu`): the cached speed is overwritten
   * before it is compared, so the comparison never holds and only the FULL
   * mode change can be sent.
   */
  function X9SetSpeed(b: Bmc, speed: int, ipmi: Oracle): (s: Step<Bmc, ()>)
    ensures s.sent == (if b.fanMode == Some(Full) then [] else [FanModeCommand(Full)])
    ensures s.state.speed == Some(speed)
    ensures s.result.Success? <==> b.fanMode == Some(Full) || ipmi(FanModeCommand(Full)).Output?
    ensures s.result.Success? ==> s.state == b.(speed := Some(speed), fanMode := Some(Full))
    ensures s.result.Failure? ==> s.state == b.(speed := Some(speed))
  {
    var cached := b.(speed := Some(speed));
    var f := SetFanMode(cached, Full, ipmi);
    if f.result.Failure? then
      f
    else if Some(speed) != f.state.speed then
      var zones := SendZones(X9Raw, f.state.speedZones.GetOr([]), PwmText(speed), ipmi);
      Step(f.state.(speed := Some(speed)), f.sent + zones.0, zones.1)
    else
      f
  }

  /** The zones `X10.get_speed_zones` settles on once the FRU map is known. */
  function ResolvedZones(speedZones: Option<seq<string>>, partNumber: string): (zones: seq<string>)
    ensures speedZones.Some? && |speedZones.value| > 0 ==> zones == speedZones.value
    ensures !(speedZones.Some? && |speedZones.value| > 0) ==>
      zones == (if Contains(partNumber, "X10DRG") then ["00", "01", "02", "03"] else ["00", "01"])
  {
    if speedZones.Some? && |speedZones.value| > 0 then speedZones.value
    else if Contains(partNumber, "X10DRG") then ["00", "01", "02", "03"]
    else ["00", "01"]
  }

  /** `board_part_number()`: reads and parses the FRU listing only when no map is cached. */
  function BoardPartNumber(b: Bmc, ipmi: Oracle): (s: Step<Bmc, string>)
    ensures b.fru.Some? ==> s == Step(b, [], Success(PartNumber(b.fru.value)))
    ensures b.fru.None? ==> s.sent == [FruCommand]
    ensures s.result.Success? <==> b.fru.Some? || ipmi(FruCommand).Output?
    ensures s.result.Success? ==> s.state.fru.Some? && s.result.value == PartNumber(s.state.fru.value)
    ensures b.fru.None? && ipmi(FruCommand).Output? ==> s.state == b.(fru := Some(ParseFru(ipmi(FruCommand).lines)))
    ensures s.result.Failure? ==> s.state == b
  {
    if b.fru.Some? then
      Step(b, [], Success(PartNumber(b.fru.value)))
    else
      match ipmi(FruCommand)
      case Failed => Step(b, [FruCommand], Failure(Transport(FruCommand)))
      case Output(_, lines) =>
        var fru := ParseFru(lines);
        Step(b.(fru := Some(fru)), [FruCommand], Success(PartNumber(fru)))
  }

  /**
   * `X10.get_speed_zones()`: the configured zones when there are any,
   * otherwise four zones on an `X10DRG` board and two on any other. The FRU
   * map is fetched first either way.
   */
  function GetSpeedZones(b: Bmc, ipmi: Oracle): (s: Step<Bmc, seq<string>>)
    ensures s.sent == (if b.fru.Some? then [] else [FruCommand])
    ensures s.result.Success? <==> b.fru.Some? || ipmi(FruCommand).Output?
    ensures s.result.Success? ==>
      s.state.fru.Some? && s.result.value == ResolvedZones(b.speedZones, PartNumber(s.state.fru.value))
    ensures s.state == b.(fru := s.state.fru)
    ensures b.fru.Some? ==> s.state == b
    ensures b.fru.None? && ipmi(FruCommand).Output? ==> s.state.fru == Some(ParseFru(ipmi(FruCommand).lines))
    ensures b.fru.None? && ipmi(FruCommand).Failed? ==> s.state.fru.None?
  {
    var p := BoardPartNumber(b, ipmi);
    if p.result.Failure? then
      Step(p.state, p.sent, Failure(p.result.error))
    else if b.speedZones.Some? && |b.speedZones.value| > 0 then
      Step(p.state, p.sent, Success(b.speedZones.value))
    else if Contains(p.result.value, "X10DRG") then
      Step(p.state, p.sent, Success(["00", "01", "02", "03"]))
    else
      Step(p.state, p.sent, Success(["00", "01"]))
  }

  /** The commands that put the fans in FULL mode from the cached mode. */
  function ToFull(b: Bmc): seq<string> {
    if b.fanMode == Some(Full) then [] else [FanModeCommand(Full)]
  }

  /** The FRU read, if the map is not cached yet. */
  function FruRead(b: Bmc): seq<string> {
    if b.fru.Some? then [] else [FruCommand]
  }

  /** The FRU map once `board_part_number()` has run: the cached one, else the parsed reply. */
  function FruAfterRead(b: Bmc, ipmi: Oracle): Option<map<string, string>> {
    if b.fru.Some? then b.fru
    else if ipmi(FruCommand).Output? then Some(ParseFru(ipmi(FruCommand).lines))
    else None
  }

  /** The FULL mode is in place: cached, or its command returned. */
  predicate FullAccepted(b: Bmc, ipmi: Oracle) {
    b.fanMode == Some(Full) || ipmi(FanModeCommand(Full)).Output?
  }

  /** The FRU map is known and every resolved zone accepted its command for `speed`. */
  predicate ZonesAccepted(b: Bmc, speed: int, ipmi: Oracle) {
    && FruAfterRead(b, ipmi).Some?
    && var zones := ResolvedZones(b.speedZones, PartNumber(FruAfterRead(b, ipmi).value));
       forall i :: 0 <= i < |zones| ==> ipmi(ZoneCommand(X10Raw, zones[i], PwmText(speed))).Output?
  }

  /**
   * `X10.set_speed(speed)` (also `X11`): FULL mode first; then, only when
   * `speed` differs from the cached speed, one zone command per resolved
   * zone with the same duty value; the speed is cached after the last one.
   */
  function X10SetSpeed(b: Bmc, speed: int, ipmi: Oracle): (s: Step<Bmc, ()>)
    ensures s.result.Success? <==> FullAccepted(b, ipmi) && (b.speed == Some(speed) || ZonesAccepted(b, speed, ipmi))
    ensures FullAccepted(b, ipmi) && b.speed != Some(speed) ==> s.state.fru == FruAfterRead(b, ipmi)
    ensures b.speed == Some(speed) ==> s.sent == ToFull(b)
    ensures s.result.Success? && b.speed != Some(speed) ==>
      && s.state.fru.Some?
      && s.sent == ToFull(b) + FruRead(b)
        + ZoneCommands(X10Raw, ResolvedZones(b.speedZones, PartNumber(s.state.fru.value)), PwmText(speed))
    ensures |ToFull(b)| <= |s.sent| && s.sent[..|ToFull(b)|] == ToFull(b)
    ensures s.result.Success? ==> s.state == b.(fanMode := Some(Full), speed := Some(speed), fru := s.state.fru)
    ensures s.result.Failure? ==> s.state.speed == b.speed
    ensures s.state.fru.None? ==> s.state.fru == b.fru
    ensures b.fru.Some? ==> s.state.fru == b.fru
    ensures b.fru.None? && s.state.fru.Some? ==>
      && FruCommand in s.sent && ipmi(FruCommand).Output?
      && s.state.fru == Some(ParseFru(ipmi(FruCommand).lines))
    ensures s.result.Failure? ==> s.state == b.(fanMode := s.state.fanMode, fru := s.state.fru)
    ensures b.fanMode != Some(Full) && ipmi(FanModeCommand(Full)).Failed? ==>
      s == Step(b, [FanModeCommand(Full)], Failure(Transport(FanModeCommand(Full))))
    ensures s.result.Failure? && (b.fanMode == Some(Full) || ipmi(FanModeCommand(Full)).Output?) ==>
      && b.speed != Some(speed) && s.state.fanMode == Some(Full)
      && (s.state.fru.None? ==> s.sent == ToFull(b) + [FruCommand] && ipmi(FruCommand).Failed?)
      && (s.state.fru.Some? ==>
        var zones := ResolvedZones(b.speedZones, PartNumber(s.state.fru.value));
        exists k :: FailedAt(X10Raw, zones, PwmText(speed), ipmi, k)
          && s.sent == ToFull(b) + FruRead(b) + ZoneCommands(X10Raw, zones[..k + 1], PwmText(speed)))
  {
    var f := SetFanMode(b, Full, ipmi);
    if f.result.Failure? then
      f
    else if f.state.speed == Some(speed) then
      f
    else
      var pwm := PwmText(speed);
      var z := GetSpeedZones(f.state, ipmi);
      if z.result.Failure? then
        Step(z.state, f.sent + z.sent, Failure(z.result.error))
      else
        var zones := SendZones(X10Raw, z.result.value, pwm, ipmi);
        var state := if zones.1.Success? then z.state.(speed := Some(speed)) else z.state;
        Step(state, f.sent + z.sent + zones.0, zones.1)
  }

  /** `set_speed` as the device's class dispatches it. */
  function SetSpeed(b: Bmc, speed: int, ipmi: Oracle): (s: Step<Bmc, ()>)
    ensures b.generation in {X9, Gpu} ==> s.state.speed == Some(speed) && |s.sent| <= 1
    ensures b.generation in {X10, X11} && b.speed == Some(speed) ==> |s.sent| <= 1
    ensures s.result.Success? ==> s.state.fanMode == Some(Full) && s.state.speed == Some(speed)
    ensures b.generation in {X9, Gpu} ==>
      && s.sent == ToFull(b)
      && (s.result.Success? <==> b.fanMode == Some(Full) || ipmi(FanModeCommand(Full)).Output?)
      && s.state == (if s.result.Success? then b.(speed := Some(speed), fanMode := Some(Full)) else b.(speed := Some(speed)))
    ensures b.generation in {X10, X11} && b.speed == Some(speed) ==> s.sent == ToFull(b)
    ensures b.generation in {X10, X11} && s.result.Success? && b.speed != Some(speed) ==>
      && s.state.fru.Some?
      && s.sent == ToFull(b) + FruRead(b)
        + ZoneCommands(X10Raw, ResolvedZones(b.speedZones, PartNumber(s.state.fru.value)), PwmText(speed))
    ensures b.generation in {X10, X11} && s.result.Failure? ==> s.state == b.(fanMode := s.state.fanMode, fru := s.state.fru)
    ensures b.generation in {X10, X11} ==>
      && (s.result.Success? <==> FullAccepted(b, ipmi) && (b.speed == Some(speed) || ZonesAccepted(b, speed, ipmi)))
      && (FullAccepted(b, ipmi) && b.speed != Some(speed) ==> s.state.fru == FruAfterRead(b, ipmi))
      && (!FullAccepted(b, ipmi) ==> s == Step(b, [FanModeCommand(Full)], Failure(Transport(FanModeCommand(Full)))))
      && (b.fru.None? && s.state.fru.Some? ==>
        FruCommand in s.sent && ipmi(FruCommand).Output? && s.state.fru == Some(ParseFru(ipmi(FruCommand).lines)))
  {
    match b.generation
    case X9 => X9SetSpeed(b, speed, ipmi)
    case Gpu => X9SetSpeed(b, speed, ipmi)
    case X10 => X10SetSpeed(b, speed, ipmi)
    case X11 => X10SetSpeed(b, speed, ipmi)
  }
}

=== FILE: supermicro_props.dfy ===
/** Properties of the Supermicro device that relate several calls or fix concrete values. */
module SupermicroProps {
  import opened Wrappers
  import opened Text
  import opened Exec
  import opened Sdr
  import opened Fru
  import opened Supermicro

  /**
   * `set_fan_mode(m)` twice in a row sends the mode command at most once,
   * exactly once when `m` was not cached, and always from the unknown state.
   */
  lemma SetFanModeTwice(b: Bmc, mode: FanMode, ipmi: Oracle)
    ensures var s1 := SetFanMode(b, mode, ipmi);
      var s2 := SetFanMode(s1.state, mode, ipmi);
      && (s1.result.Success? ==> s2.sent == [] && s2.state == s1.state)
      && (s1.result.Success? ==> |s1.sent + s2.sent| == (if b.fanMode == Some(mode) then 0 else 1))
      && (b.fanMode.None? ==> s1.sent == [FanModeCommand(mode)])
  {
  }

  /** After a successful `close()`, another `close()` sends nothing. */
  lemma CloseTwice(b: Bmc, ipmi: Oracle)
    ensures var s1 := Close(b, ipmi);
      s1.result.Success? ==> Close(s1.state, ipmi).sent == []
  {
  }

  /** The mode value is written in decimal: `raw 0x30 0x45 0x01 4` for HEAVYIO. */
  lemma FanModeCommands()
    ensures FanModeCommand(Standard) == "raw 0x30 0x45 0x01 0"
    ensures FanModeCommand(Full) == "raw 0x30 0x45 0x01 1"
    ensures FanModeCommand(Optimal) == "raw 0x30 0x45 0x01 2"
    ensures FanModeCommand(HeavyIo) == "raw 0x30 0x45 0x01 4"
  {
  }

  /**
   * Reading the mode back: a reply that is the decimal value of a mode,
   * framed by any white space, caches and returns that mode.
   */
  lemma GetFanModeReadsValue(b: Bmc, mode: FanMode, ipmi: Oracle, lead: string, trail: string)
    requires AllSpace(lead) && AllSpace(trail)
    requires ipmi(FanModeQuery).Output? && ipmi(FanModeQuery).stdout == lead + NatToDecimal(mode.Value()) + trail
    ensures GetFanMode(b, ipmi) == Step(b.(fanMode := Some(mode)), [FanModeQuery], Success(mode))
  {
    ParseIntOfFramed(lead, mode.Value(), trail);
    assert ModeOf(mode.Value()) == Some(mode);
  }

  /** A command of the `X9` speed dialect is never the FULL mode command. */
  lemma X9ZoneCommandIsNotModeCommand(zone: string, pwm: string)
    ensures ZoneCommand(X9Raw, zone, pwm) != FanModeCommand(Full)
  {
    assert ZoneCommand(X9Raw, zone, pwm)[11] == '9';
    assert FanModeCommand(Full)[11] == '4';
  }

  /** `X9.set_speed` never sends a zone command, whatever the zones, speed and cached state. */
  lemma X9SetSpeedSendsNoZoneCommand(b: Bmc, speed: int, ipmi: Oracle, zone: string, pwm: string)
    ensures ZoneCommand(X9Raw, zone, pwm) !in X9SetSpeed(b, speed, ipmi).sent
  {
    X9ZoneCommandIsNotModeCommand(zone, pwm);
  }

  /** `X10.set_speed(p)` right after a successful `X10.set_speed(p)` sends nothing. */
  lemma X10SetSpeedRepeat(b: Bmc, speed: int, ipmi: Oracle)
    ensures var s1 := X10SetSpeed(b, speed, ipmi);
      s1.result.Success? ==> X10SetSpeed(s1.state, speed, ipmi) == Step(s1.state, [], Success(()))
  {
  }

  /**
   * A new speed after a successful first one re-sends one command for every
   * zone and nothing else: the mode and the FRU map are cached by then.
   */
  lemma X10SetSpeedChange(b: Bmc, p: int, q: int, ipmi: Oracle)
    requires b.speed != Some(p) && p != q
    ensures var s1 := X10SetSpeed(b, p, ipmi);
      var s2 := X10SetSpeed(s1.state, q, ipmi);
      s1.result.Success? && s2.result.Success? ==>
        s2.sent == ZoneCommands(X10Raw, ResolvedZones(b.speedZones, PartNumber(s1.state.fru.value)), PwmText(q))
  {
  }

  /** The zone count without configured zones: four on an `X10DRG` board, two otherwise. */
  lemma DefaultZoneCount(speedZones: Option<seq<string>>, partNumber: string)
    requires speedZones.None? || speedZones == Some([])
    ensures |ResolvedZones(speedZones, partNumber)| == (if Contains(partNumber, "X10DRG") then 4 else 2)
  {
  }

  /**
   * A fresh `X10` built with the constructor's default zones: once the FRU
   * listing is read, four zones on an `X10DRG` board and two on any other.
   */
  lemma FreshX10Zones(generation: Generation, ipmi: Oracle)
    requires generation == X10 || generation == X11
    ensures var s := GetSpeedZones(NewBmc(generation, DefaultZones(generation)), ipmi);
      && s.sent == [FruCommand]
      && (ipmi(FruCommand).Failed? ==> s.result.Failure?)
      && (ipmi(FruCommand).Output? ==>
        var part := PartNumber(ParseFru(ipmi(FruCommand).lines));
        s.result == Success(if Contains(part, "X10DRG") then ["00", "01", "02", "03"] else ["00", "01"]))
  {
  }

  /**
   * Two CPU rows: core 0 reads the first listed sensor's value, and with no
   * core the hotter of the two is reported.
   */
  lemma CpuTempExample(rest1: string, rest2: string)
    ensures var lines := [Row("CPU1 Temp", 45, rest1), Row("CPU2 Temp", 52, rest2)];
      CpuTemp(lines, Some(0)) == Success(45) && CpuTemp(lines, None) == Success(52)
  {
    var lines := [Row("CPU1 Temp", 45, rest1), Row("CPU2 Temp", 52, rest2)];
    CpuTableExample(rest1, rest2);
    CpuRowsWellFormed(rest1, rest2);
    CpuTempOfTable(lines, 45, 52);
  }

  /** The CPU table of the two example rows. */
  lemma CpuTableExample(rest1: string, rest2: string)
    ensures Table(CpuSensors, [Row("CPU1 Temp", 45, rest1), Row("CPU2 Temp", 52, rest2)]) == [45, 52]
  {
    var a, b := Row("CPU1 Temp", 45, rest1), Row("CPU2 Temp", 52, rest2);
    RowAmong("CPU1 Temp", CpuSensors[0], 45, rest1);
    RowAmong("CPU1 Temp", CpuSensors[1], 45, rest1);
    RowAmong("CPU1 Temp", CpuSensors[2], 45, rest1);
    RowAmong("CPU2 Temp", CpuSensors[0], 52, rest2);
    RowAmong("CPU2 Temp", CpuSensors[1], 52, rest2);
    RowAmong("CPU2 Temp", CpuSensors[2], 52, rest2);
    TableOfTwoRows(CpuSensors, a, b, 45, 52);
  }

  /** Neither example row is malformed for any sensor. */
  lemma CpuRowsWellFormed(rest1: string, rest2: string)
    ensures !AnyMalformed(CpuSensors, [Row("CPU1 Temp", 45, rest1), Row("CPU2 Temp", 52, rest2)])
  {
    var a, b := Row("CPU1 Temp", 45, rest1), Row("CPU2 Temp", 52, rest2);
    RowRoundTrip("CPU1 Temp", 45, rest1);
    RowRoundTrip("CPU2 Temp", 52, rest2);
    NoneMalformed(CpuSensors, a, b);
  }

  /** A row of `sensor` contributes its reading to that sensor's column and nothing to any other. */
  lemma RowAmong(sensor: string, other: string, reading: int, rest: string)
    requires ',' !in sensor
    ensures Present(RowValue(other, Row(sensor, reading, rest))) == if other == sensor then [reading] else []
  {
    RowRoundTrip(sensor, reading, rest);
  }

  /** A table of two readings with no malformed row: core 0 is the first, and no core is the larger. */
  lemma CpuTempOfTable(lines: seq<string>, va: int, vb: int)
    requires Table(CpuSensors, lines) == [va, vb] && !AnyMalformed(CpuSensors, lines)
    ensures CpuTemp(lines, Some(0)) == Success(va)
    ensures CpuTemp(lines, None) == Success(if va < vb then vb else va)
  {
    MaxOfPair(va, vb);
  }

  /** Two lines on which no sensor's row is malformed make no table fail. */
  lemma NoneMalformed(sensors: seq<string>, a: string, b: string)
    requires forall other :: !Malformed(other, a)
    requires forall other :: !Malformed(other, b)
    ensures !AnyMalformed(sensors, [a, b])
  {
  }

  /** Three sensors, a row of the second and then a row of the third: the table is the two readings. */
  lemma TableOfTwoRows(sensors: seq<string>, a: string, b: string, va: int, vb: int)
    requires |sensors| == 3
    requires Present(RowValue(sensors[0], a)) == [] && Present(RowValue(sensors[0], b)) == []
    requires Present(RowValue(sensors[1], a)) == [va] && Present(RowValue(sensors[1], b)) == []
    requires Present(RowValue(sensors[2], a)) == [] && Present(RowValue(sensors[2], b)) == [vb]
    ensures Table(sensors, [a, b]) == [va, vb]
  {
    ColumnPair(sensors[0], a, b);
    ColumnPair(sensors[1], a, b);
    ColumnPair(sensors[2], a, b);
    TableTriple(sensors, [a, b]);
  }

  /** The column of one sensor over two lines. */
  lemma ColumnPair(sensor: string, a: string, b: string)
    ensures Column(sensor, [a, b]) == Present(RowValue(sensor, a)) + Present(RowValue(sensor, b))
  {
    ColumnCons(sensor, b, []);
    NothingAfter([b]);
    NothingAfter(Present(RowValue(sensor, b)));
    ColumnCons(sensor, a, [b]);
    PairJoin(a, b);
  }

  /** The readings an optional value contributes to a column. */
  function Present(o: Option<int>): seq<int> {
    if o.Some? then [o.value] else []
  }

  /** A column over one more line starts with that line's reading, if any. */
  lemma ColumnCons(sensor: string, a: string, rest: seq<string>)
    ensures Column(sensor, [a] + rest) == Present(RowValue(sensor, a)) + Column(sensor, rest)
  {
    assert ([a] + rest)[1..] == rest;
  }

  /** The table of three sensors: their columns, in sensor order. */
  lemma TableTriple(sensors: seq<string>, lines: seq<string>)
    requires |sensors| == 3
    ensures Table(sensors, lines) == Column(sensors[0], lines) + Column(sensors[1], lines) + Column(sensors[2], lines)
  {
    var s1 := sensors[1..];
    var s2 := s1[1..];
    assert s2[1..] == [];
    assert Table(s2, lines) == Column(sensors[2], lines) + Table(s2[1..], lines);
    assert Table(s1, lines) == Column(sensors[1], lines) + Table(s2, lines);
  }

  /** A zone command reads back as its prefix, the zone, one space and the duty text. */
  lemma ZoneCommandFields(dialect: Dialect, zone: string, pwm: string)
    ensures var cmd, n := ZoneCommand(dialect, zone, pwm), |ZonePrefix(dialect)|;
      && |cmd| == n + |zone| + 1 + |pwm|
      && cmd[..n] == ZonePrefix(dialect)
      && cmd[n..n + |zone|] == zone
      && cmd[n + |zone|] == ' '
      && cmd[n + |zone| + 1..] == pwm
  {
  }

  /** Distinct zones get distinct commands for the same duty value. */
  lemma ZoneCommandsDiffer(dialect: Dialect, z1: string, z2: string, pwm: string)
    requires z1 != z2
    ensures ZoneCommand(dialect, z1, pwm) != ZoneCommand(dialect, z2, pwm)
  {
    ZoneCommandFields(dialect, z1, pwm);
    ZoneCommandFields(dialect, z2, pwm);
  }

  /**
   * The constructor defaults: `X9` and `Gpu` store two fixed zone tokens
   * (which their `set_speed` never sends), while `X10` and `X11` store none,
   * so their zone lookup falls back to the board-dependent zones.
   */
  lemma DefaultZonesResolved(generation: Generation, part: string)
    ensures generation in {X9, Gpu} ==> DefaultZones(generation) == Some(["0x10", "0x11"])
    ensures generation in {X10, X11} ==>
      ResolvedZones(DefaultZones(generation), part) ==
        if Contains(part, "X10DRG") then ["00", "01", "02", "03"] else ["00", "01"]
  {
  }

  /** The FRU listing is read at most once per device: a second lookup sends nothing and agrees. */
  lemma BoardPartNumberOnce(b: Bmc, ipmi: Oracle)
    ensures var s1 := BoardPartNumber(b, ipmi);
      s1.result.Success? ==> BoardPartNumber(s1.state, ipmi) == Step(s1.state, [], s1.result)
  {
  }

  /** Within 0..100 the duty value is a byte and grows with the speed. */
  lemma PwmIsMonotoneByte(a: int, c: int)
    requires 0 <= a <= c
    ensures c <= 100 ==> 0 <= Pwm(a) <= Pwm(c) <= 255
    ensures Pwm(a) <= Pwm(c)
  {
  }

  /** Full speed is `0xff` and zero speed `0x0`, as Python's `hex` writes them. */
  lemma PwmEnds()
    ensures PwmText(100) == "0xff"
    ensures PwmText(0) == "0x0"
  {
    assert Pwm(100) == 255;
    assert NatDigits(255, 16) == [15, 15];
    assert Pwm(0) == 0;
    assert NatDigits(0, 16) == [0];
  }
}

=== FILE: text.dfy ===
/**
 * The pieces of Python's `str` behaviour the drivers rely on: `in`,
 * `split(sep)`, `strip()`, `lower()`, `int(...)`, `str(int)` and `hex(int)`,
 * each written out over `seq<char>` together with the property that pins it down.
 */
module Text {
  import opened Wrappers

  /** Python's `str.isspace()`, which is also what `strip()` removes and what the regex class `\s` matches. */
  predicate IsSpace(c: char) {
    || ('\t' <= c <= '\r')
    || ('\U{1C}' <= c <= ' ')
    || c == '\U{85}' || c == '\U{A0}' || c == '\U{1680}'
    || ('\U{2000}' <= c <= '\U{200A}')
    || c == '\U{2028}' || c == '\U{2029}' || c == '\U{202F}' || c == '\U{205F}' || c == '\U{3000}'
  }

  predicate IsDigit(c: char) {
    '0' <= c <= '9'
  }

  predicate IsLower(c: char) {
    'a' <= c <= 'z'
  }

  predicate AllDigits(s: string) {
    forall i :: 0 <= i < |s| ==> IsDigit(s[i])
  }

  predicate AllSpace(s: string) {
    forall i :: 0 <= i < |s| ==> IsSpace(s[i])
  }

  predicate StartsWith(s: string, prefix: string) {
    |prefix| <= |s| && s[..|prefix|] == prefix
  }

  predicate EndsWith(s: string, suffix: string) {
    |suffix| <= |s| && s[|s| - |suffix|..] == suffix
  }

  /** `needle` occurs in `s` at index `i`. */
  predicate OccursAt(s: string, needle: string, i: int) {
    0 <= i && i + |needle| <= |s| && s[i..i + |needle|] == needle
  }

  /** Python's `needle in s`. */
  function Contains(s: string, needle: string): (r: bool)
    ensures r <==> exists i :: OccursAt(s, needle, i)
    decreases |s|
  {
    if StartsWith(s, needle) then
      assert OccursAt(s, needle, 0);
      true
    else if |s| == 0 then
      false
    else
      var r := Contains(s[1..], needle);
      forall i | OccursAt(s[1..], needle, i) ensures OccursAt(s, needle, i + 1) {
        assert s[1..][i..i + |needle|] == s[i + 1..i + 1 + |needle|];
      }
      forall i | OccursAt(s, needle, i) ensures i == 0 || OccursAt(s[1..], needle, i - 1) {
        if i > 0 {
          assert s[1..][i - 1..i - 1 + |needle|] == s[i..i + |needle|];
        }
      }
      r
  }

  /** Python's `s.lower()` on the ASCII letters. */
  function LowerChar(c: char): char {
    if 'A' <= c <= 'Z' then (c as int + 32) as char else c
  }

  function Lower(s: string): (r: string)
    ensures |r| == |s|
  {
    seq(|s|, i requires 0 <= i < |s| => LowerChar(s[i]))
  }

  /** Drops the leading white space: the left half of `strip()`. */
  function TrimLeft(s: string): (r: string)
    ensures |r| <= |s| && r == s[|s| - |r|..]
    ensures r == [] || !IsSpace(r[0])
    ensures AllSpace(s[..|s| - |r|])
    decreases |s|
  {
    if |s| > 0 && IsSpace(s[0]) then
      var r := TrimLeft(s[1..]);
      assert s[..|s| - |r|] == [s[0]] + s[1..][..|s| - 1 - |r|];
      r
    else
      s
  }

  /** Drops the trailing white space: the right half of `strip()`. */
  function TrimRight(s: string): (r: string)
    ensures |r| <= |s| && r == s[..|r|]
    ensures r == [] || !IsSpace(r[|r| - 1])
    ensures AllSpace(s[|r|..])
    decreases |s|
  {
    if |s| > 0 && IsSpace(s[|s| - 1]) then
      var r := TrimRight(s[..|s| - 1]);
      assert s[|r|..] == s[..|s| - 1][|r|..] + [s[|s| - 1]];
      r
    else
      s
  }

  /** `r` is `s` without a white-space frame, and has no white space at either end. */
  predicate Unframes(s: string, r: string) {
    && (r == [] || (!IsSpace(r[0]) && !IsSpace(r[|r| - 1])))
    && exists k :: 0 <= k <= |s| - |r| && s[k..k + |r|] == r && AllSpace(s[..k]) && AllSpace(s[k + |r|..])
  }

  /** Python's `s.strip()`: the text between the leading and the trailing white space. */
  function Strip(s: string): (r: string)
    ensures Unframes(s, r)
  {
    var t := TrimLeft(s);
    var r := TrimRight(t);
    TrimBoth(s, t, r);
    r
  }

  /** Where the trimmed text sits in the original, and that it has no white space at either end. */
  lemma TrimBoth(s: string, t: string, r: string)
    requires |t| <= |s| && t == s[|s| - |t|..] && AllSpace(s[..|s| - |t|]) && (t == [] || !IsSpace(t[0]))
    requires |r| <= |t| && r == t[..|r|] && AllSpace(t[|r|..]) && (r == [] || !IsSpace(r[|r| - 1]))
    ensures Unframes(s, r)
  {
    var k := |s| - |t|;
    assert r != [] ==> r[0] == t[0];
    assert s[k..k + |r|] == t[..|r|];
    assert s[k + |r|..] == t[|r|..];
  }

  /** Stripping text that has no white space at either end changes nothing. */
  lemma StripKeeps(s: string)
    requires s == [] || (!IsSpace(s[0]) && !IsSpace(s[|s| - 1]))
    ensures Strip(s) == s
  {
  }

  /** Dropping a white-space prefix in front of text that does not start with white space. */
  lemma {:induction false} TrimLeftFrame(lead: string, t: string)
    requires AllSpace(lead)
    requires t == [] || !IsSpace(t[0])
    ensures TrimLeft(lead + t) == t
    decreases |lead|
  {
    if |lead| > 0 {
      assert (lead + t)[1..] == lead[1..] + t;
      TrimLeftFrame(lead[1..], t);
    }
  }

  /** Dropping a white-space suffix behind text that does not end with white space. */
  lemma {:induction false} TrimRightFrame(t: string, trail: string)
    requires AllSpace(trail)
    requires t == [] || !IsSpace(t[|t| - 1])
    ensures TrimRight(t + trail) == t
    decreases |trail|
  {
    if |trail| > 0 {
      assert (t + trail)[..|t + trail| - 1] == t + trail[..|trail| - 1];
      TrimRightFrame(t, trail[..|trail| - 1]);
    }
  }

  /** Strip removes exactly the white-space frame around a text that has none at its own ends. */
  lemma StripFrame(lead: string, t: string, trail: string)
    requires AllSpace(lead) && AllSpace(trail)
    requires t == [] || (!IsSpace(t[0]) && !IsSpace(t[|t| - 1]))
    ensures Strip(lead + t + trail) == t
  {
    if t == [] {
      assert lead + t + trail == lead + trail;
      TrimLeftFrame(lead + trail, []);
      assert lead + trail + [] == lead + trail;
    } else {
      assert lead + t + trail == lead + (t + trail);
      TrimLeftFrame(lead, t + trail);
      TrimRightFrame(t, trail);
    }
  }

  /** The index of the first `c` in `s`. */
  function IndexOf(s: string, c: char): (i: nat)
    requires c in s
    ensures i < |s| && s[i] == c && c !in s[..i]
  {
    if s[0] == c then 0 else 1 + IndexOf(s[1..], c)
  }

  /** Inverse of `Split`: the parts glued back together with the separator between them. */
  function Join(parts: seq<string>, sep: char): string {
    if |parts| == 0 then ""
    else if |parts| == 1 then parts[0]
    else parts[0] + [sep] + Join(parts[1..], sep)
  }

  /** Python's `s.split(sep)` for a one-character separator. */
  function Split(s: string, sep: char): (parts: seq<string>)
    ensures |parts| >= 1
    ensures Join(parts, sep) == s
    ensures forall k :: 0 <= k < |parts| ==> sep !in parts[k]
    ensures |parts| >= 2 <==> sep in s
    decreases |s|
  {
    if sep !in s then
      [s]
    else
      var i := IndexOf(s, sep);
      var rest := Split(s[i + 1..], sep);
      var parts := [s[..i]] + rest;
      assert parts[1..] == rest;
      assert s == s[..i] + [sep] + s[i + 1..];
      parts
  }

  /** The first field of a split is the text before the first separator, so it is a prefix of the input. */
  lemma FirstFieldIsPrefix(s: string, sep: char)
    ensures StartsWith(s, Split(s, sep)[0])
    ensures sep in s ==> s[|Split(s, sep)[0]|] == sep
  {
    var parts := Split(s, sep);
    if |parts| >= 2 {
      assert s == parts[0] + [sep] + Join(parts[1..], sep);
      assert s[..|parts[0]|] == parts[0];
    }
  }

  /** `IndexOf` finds the first occurrence and no other. */
  lemma {:induction false} IndexOfFirst(s: string, c: char, j: nat)
    requires j < |s| && s[j] == c && c !in s[..j]
    ensures IndexOf(s, c) == j
  {
    if j > 0 {
      assert s[..j][0] == s[0];
      assert s[1..][..j - 1] == s[1..j];
      assert s[1..j] <= s[..j][1..];
      IndexOfFirst(s[1..], c, j - 1);
    }
  }

  /** Splitting at a first separator: the text before it is the first field, the rest splits on its own. */
  lemma SplitAt(a: string, b: string, sep: char)
    requires sep !in a
    ensures Split(a + [sep] + b, sep) == [a] + Split(b, sep)
  {
    var s := a + [sep] + b;
    assert s[..|a|] == a;
    IndexOfFirst(s, sep, |a|);
    assert s[|a| + 1..] == b;
  }

  // Positional numerals, shared by the decimal and hexadecimal renderings.

  /** The value of a most-significant-first digit sequence. */
  function DigitsValue(ds: seq<nat>, base: nat): nat {
    if |ds| == 0 then 0 else DigitsValue(ds[..|ds| - 1], base) * base + ds[|ds| - 1]
  }

  /** The shortest digit sequence of `n` (a single `0` for zero), most significant first. */
  function NatDigits(n: nat, base: nat): (ds: seq<nat>)
    requires 2 <= base
    ensures |ds| >= 1
    ensures forall i :: 0 <= i < |ds| ==> ds[i] < base
    ensures n > 0 ==> ds[0] != 0
    ensures DigitsValue(ds, base) == n
    decreases n
  {
    if n < base then
      [n]
    else
      var q, d := n / base, n % base;
      DivMod(n, base);
      var high := NatDigits(q, base);
      DigitsValueSnoc(high, d, base);
      assert (high + [d])[0] == high[0];
      high + [d]
  }

  /** Euclidean division by a base of at least two. */
  lemma DivMod(n: nat, base: nat)
    requires 2 <= base <= n
    ensures n == (n / base) * base + n % base
    ensures 0 < n / base < n && n % base < base
  {
  }

  /** Appending a digit shifts the value by one place. */
  lemma DigitsValueSnoc(ds: seq<nat>, d: nat, base: nat)
    ensures DigitsValue(ds + [d], base) == DigitsValue(ds, base) * base + d
  {
    assert (ds + [d])[..|ds|] == ds;
  }

  /** Python's digit characters: `0`-`9`, then lower-case `a`-`f`. */
  function DigitChar(d: nat): (c: char)
    requires d < 16
    ensures d < 10 ==> IsDigit(c) && DigitValue(c) == d
  {
    if d < 10 then ('0' as int + d) as char else ('a' as int + d - 10) as char
  }

  function Render(ds: seq<nat>): (r: string)
    requires forall i :: 0 <= i < |ds| ==> ds[i] < 16
    ensures |r| == |ds|
  {
    seq(|ds|, i requires 0 <= i < |ds| => DigitChar(ds[i]))
  }

  function DigitValue(c: char): nat
    requires IsDigit(c)
  {
    c as int - '0' as int
  }

  /** The value of a string of decimal digits, most significant first. */
  function DecimalValue(s: string): nat
    requires AllDigits(s)
  {
    if |s| == 0 then 0 else DecimalValue(s[..|s| - 1]) * 10 + DigitValue(s[|s| - 1])
  }

  /** Python's `str(n)` for a natural number: decimal digits without leading zeros. */
  function NatToDecimal(n: nat): (r: string)
    ensures |r| >= 1 && AllDigits(r)
    ensures DecimalValue(r) == n
    ensures n > 0 ==> r[0] != '0'
    decreases n
  {
    if n < 10 then
      [DigitChar(n)]
    else
      var high := NatToDecimal(n / 10);
      var r := high + [DigitChar(n % 10)];
      assert r[..|r| - 1] == high;
      r
  }

  /** Python's `str(n)`. */
  function IntToDecimal(n: int): string {
    if n < 0 then "-" + NatToDecimal(-n) else NatToDecimal(n)
  }

  /** Python's `hex(n)`: lower-case digits, no leading zeros, `-0x` for negatives. */
  function Hex(n: int): (r: string)
    ensures n >= 0 ==> r == "0x" + Render(NatDigits(n, 16))
    ensures n < 0 ==> r == "-0x" + Render(NatDigits(-n, 16))
  {
    if n < 0 then "-0x" + Render(NatDigits(-n, 16)) else "0x" + Render(NatDigits(n, 16))
  }

  /** The digits after an optional sign, when the text is one non-empty run of decimal digits. */
  function SignedDigits(t: string): (r: Option<int>)
    ensures r.Some? <==> (|t| > 0 && (t[0] == '-' || t[0] == '+') && |t| > 1 && AllDigits(t[1..])) || (|t| > 0 && AllDigits(t))
  {
    if |t| > 0 && (t[0] == '-' || t[0] == '+') then
      if |t| > 1 && AllDigits(t[1..]) then
        var v: int := DecimalValue(t[1..]);
        Some(if t[0] == '-' then -v else v)
      else None
    else if |t| > 0 && AllDigits(t) then
      Some(DecimalValue(t))
    else
      None
  }

  /**
   * Python's `int(s)` on ASCII input: surrounding white space, an optional
   * sign, then one or more decimal digits; anything else raises ValueError,
   * modelled as `None`.
   */
  function ParseInt(s: string): Option<int> {
    SignedDigits(Strip(s))
  }

  /** `int(str(n)) == n`: the decimal rendering reads back as the number it renders. */
  lemma ParseIntOfDecimal(n: int)
    ensures ParseInt(IntToDecimal(n)) == Some(n)
  {
    if n < 0 {
      var ds := NatToDecimal(-n);
      ParseIntOfNegative(ds);
      assert IntToDecimal(n) == "-" + ds;
    } else {
      var ds := NatToDecimal(n);
      ParseIntOfNatural(ds);
      assert IntToDecimal(n) == ds;
    }
  }

  /** `int()` ignores white space around a decimal: `int(" 4\n") == 4`. */
  lemma ParseIntOfFramed(lead: string, n: nat, trail: string)
    requires AllSpace(lead) && AllSpace(trail)
    ensures ParseInt(lead + NatToDecimal(n) + trail).Some?
    ensures ParseInt(lead + NatToDecimal(n) + trail).value == n
  {
    var t := NatToDecimal(n);
    DigitIsNotSpace(t[0]);
    DigitIsNotSpace(t[|t| - 1]);
    StripFrame(lead, t, trail);
    ParseIntOfNatural(t);
  }

  /** A run of digits reads back as its value. */
  lemma ParseIntOfNatural(ds: string)
    requires |ds| > 0 && AllDigits(ds)
    ensures ParseInt(ds) == Some(DecimalValue(ds) as int)
  {
    assert IsDigit(ds[0]) && IsDigit(ds[|ds| - 1]);
    DigitIsNotSpace(ds[0]);
    DigitIsNotSpace(ds[|ds| - 1]);
    StripKeeps(ds);
    SignedDigitsOfNatural(ds);
  }

  /** A run of digits after a minus sign reads back as its negated value. */
  lemma ParseIntOfNegative(ds: string)
    requires |ds| > 0 && AllDigits(ds)
    ensures ParseInt("-" + ds) == Some(-(DecimalValue(ds) as int))
  {
    var t := "-" + ds;
    assert IsDigit(ds[|ds| - 1]);
    DigitIsNotSpace(ds[|ds| - 1]);
    assert t[|t| - 1] == ds[|ds| - 1];
    StripKeeps(t);
    SignedDigitsOfNegative(ds);
  }

  lemma SignedDigitsOfNatural(ds: string)
    requires |ds| > 0 && AllDigits(ds)
    ensures SignedDigits(ds) == Some(DecimalValue(ds) as int)
  {
    assert IsDigit(ds[0]);
  }

  lemma SignedDigitsOfNegative(ds: string)
    requires |ds| > 0 && AllDigits(ds)
    ensures SignedDigits("-" + ds) == Some(-(DecimalValue(ds) as int))
  {
    var t := "-" + ds;
    assert t[0] == '-';
    assert t[1..] == ds;
  }

  /** A digit never appears among Python's white space. */
  lemma DigitIsNotSpace(c: char)
    requires IsDigit(c)
    ensures !IsSpace(c)
  {
  }

  // Lists.

  /** Two one-element lists joined are the pair. */
  lemma PairJoin<T>(x: T, y: T)
    ensures [x] + [y] == [x, y]
  {
  }

  /** Appending nothing leaves a list as it is. */
  lemma NothingAfter<T>(xs: seq<T>)
    ensures xs + [] == xs
  {
  }
}

=== FILE: wrappers.dfy ===
/** Failure-compatible wrappers shared by every module of the model. */
module Wrappers {

  /** A value that may be missing: Python's `Optional[...]`, `None` included. */
  datatype Option<+T> = None | Some(value: T) {

    /** The wrapped value, or `default` when there is none. */
    function GetOr(default: T): T {
      match this
      case Some(v) => v
      case None => default
    }
  }

  /** The outcome of an operation that may raise: a value, or the exception it raised. */
  datatype Result<+R, +E> = Success(value: R) | Failure(error: E) {

    predicate IsFailure() {
      Failure?
    }

    function PropagateFailure<U>(): Result<U, E>
      requires Failure?
    {
      Failure(error)
    }

    function Extract(): R
      requires Success?
    {
      value
    }
  }
}
